=== FILE: README.md ===
# Memory and entitlement core of the GlitchAI chat bot

`bot.py` is a Telegram chat bot backed by Gemini and SQLite. This project
models the deterministic engine under the transport layer, in Dafny, over
abstract tables:

- **conversation numbering**: `start_new_conversation` and the numbering,
  row and score part of `log_conversation`;
- **scoring**: `calculate_message_points`;
- **names and texts**: `normalize_arabic_name`, and `get_text` over the full
  `LANGUAGES` table (44 keys in English, Arabic and French);
- **fact memory**:
  - the cadence and quota gate of `extract_facts`;
  - its fuzzy-match merge loop: `fact LIKE '%' || fact[5:15] || '%'` with
    SQLite's LIKE semantics, modelled exactly;
  - the dedup loop of `import_memory_from_json`;
- **fact selection**: `get_user_facts`, with its ranking, LIMIT and usage
  feedback;
- **history rendering**: `get_conversation_history`;
- **entitlements**: `is_user_subscribed` (including its expiry side effect),
  `purchase_subscription`, `redeem_code`, and the `XXX-YYY-YYY` code shape.

How the tables are represented:

- SQLite tables are sequences in rowid order.
- The in-memory `conversation_contexts` is a map.
- `datetime.now()`, `uuid4()` and the new row ids are parameters.
- Time is a whole number of seconds, and `timedelta(days = n)` is `Days(n)`.
- Confidence is a `real`.

Files and modules:

| file | module | contents |
|---|---|---|
| types.dfy | `Types` | rows and records |
| text.dfy | `Text` | ASCII lower-casing, Python slices, `str(int)`, `"\n".join` |
| like.dfy | `SqlLike` | SQLite LIKE and its containment lemmas |
| sorting.dfy | `Sorting` | ORDER BY (stable insertion sort by a total preorder), LIMIT, `reversed` |
| points.dfy | `Points` | message scoring |
| session.dfy | `Session` | numbering and logging |
| localization.dfy | `Localization` | `LANGUAGES`, `str.format`, `get_text` |
| names.dfy | `Names` | name normalisation |
| subscription.dfy | `Subscription` | the entitlement state machine |
| facts.dfy | `FactStore` | matcher, ingest, gate, import |
| selection.dfy | `FactSelector` | `get_user_facts` |
| history.dfy | `History` | `get_conversation_history` |

Behaviour worth knowing:

- **LIKE ignores ASCII case.** The fuzzy match is case-insensitive for ASCII
  letters, because that is SQLite's LIKE. It is not case-sensitive.
- **The quota is read once per batch.** The free-memory quota is checked once,
  before the batch, not before every insert. One batch can therefore take a
  free user past 50 facts (`FactStore.OneBatchCanOvershootQuota`).
- **No 0.6 confidence threshold is enforced.** The 0.6 figure appears only in
  the prompt text. Any confidence is stored.
- **Purchase replaces a later end date.** `purchase_subscription` sets the end
  date to `now + days` even when the current subscription runs longer.
  `redeem_code`, by contrast, extends a live subscription.
- **`get_text` can raise KeyError.** The subscription screen asks for
  `'choose_plan'` (bot.py:2069), and no language defines that key.

## Model

| member | source | states |
|---|---|---|
| `Session.StartNewConversation` | bot.py:352-362 | the user's context becomes the fresh id with count 0; every other user's context is kept |
| `Session.NextMessageNumber` | bot.py:513-520 | as written: with a context, the number is the stored count plus one and becomes the new count in the same conversation; without one, `start_new_conversation` installs the fresh id with count 0 and 1 is returned |
| `Session.NextMessageNumberIntended` | bot.py:513-520 | corrected numbering: the stored count always equals the number just handed out; the conversation id is kept, or is the fresh id for an implicit start |
| `Session.NumberingContinuesFromStoredCount` | bot.py:517-520 | once a context exists, n logs return count+1 … count+n in order and leave the count at count+n in the same conversation |
| `Session.StartThenLogNumbersOneToN` | bot.py:352-362 | after `start_new_conversation`, n logs are numbered 1..n and the context ends as (id, n) |
| `Session.ImplicitStartRepeatsNumberOne` | bot.py:514-516 | as written, the first two logs of a user without a context are both numbered 1 |
| `Session.IntendedNumberingHasNoRepeats` | bot.py:514-516 | with the corrected numbering, n logs from no context are numbered 1..n |
| `Session.LogConversation` | bot.py:507-552 | as written: without a context the user gets a fresh context with count 0 and the exchange is numbered 1; with one, the number is the stored count plus one and is stored; the row is appended with the current conversation id, the number and the points; the score grows by exactly the points, and only for a known user; other users' contexts are kept |
| `Session.LogConversationIntended` | bot.py:507-552 | corrected log: the stored count equals the returned number, the old count plus one, or 1 for an implicit start under the fresh id; otherwise as `log_conversation`: other users' contexts are kept, the row is appended with the conversation id, number and points (1..10), and the score grows by exactly the points, only for a known user |
| `Session.LogVariantsDifferOnlyOnImplicitStart` | bot.py:513-520 | with a context both logs agree on everything; without one both number the exchange 1 and agree on rows, points and scores, and their context maps differ only in the new context's count: 0 as written, 1 when corrected |
| `Session.LogAddsPointsToScore` | bot.py:536-540 | after a log, `get_user_score` of the logging user, when it has a row, is higher by exactly the exchange's points; every other user's score is unchanged |
| `Points.MessagePoints` | bot.py:441-471 | points lie in 1..10; 10 exactly when every bonus applies; 1 exactly when none does |
| `Points.UserTextExtensionNeverLowersPoints` | bot.py:448-468 | appending to the user's text never lowers the points (length thresholds, `?` and keywords are all kept) |
| `Names.NormalizeArabicName` | bot.py:555-572 | the result is "wael" exactly when the lower-cased name is a mapped spelling; otherwise it is the name unchanged (not lower-cased) |
| `Names.NormalizeIsIdempotent` | bot.py:555-572 | normalizing twice equals normalizing once |
| `Names.KnownSpellingsAgree` | bot.py:557-569 | every capitalisation of "wail" or "wael", and the Arabic spelling, normalizes to "wael" |
| `Localization.GetText` | bot.py:395-408 | KeyError exactly when the key is missing from the table (for every language); an unknown language falls back to the English text unformatted; without kwargs the raw text is returned; a format failure other than a missing field is only a malformed text |
| `Localization.UserLanguage` | bot.py:364-379 | `get_user_language`: the language stored in the user's row, "en" for a user without one |
| `Localization.TextsFollowOwnLanguage` | bot.py:395-408 | another user's row never changes the texts a user gets, and a user without a row gets the English texts |
| `Localization.ChoosePlanRaisesKeyError` | bot.py:2069 | `get_text(user, 'choose_plan')` raises KeyError for every user |
| `Localization.FormatOneField` | bot.py:400-405 | in a text whose only braces are those of one keyword field `{name}` (an identifier), `str.format` replaces the field by its argument, or fails naming the missing field |
| `Localization.GetTextFillsOneField` | bot.py:399-405 | a text whose only braces are one field is filled from the kwargs, or returned unfilled when the kwargs lack that field |
| `Text.PySlice` | bot.py:654 | a Python slice `s[lo:hi]` has length max(0, min(hi, len(s)) - lo), its i-th character is `s[lo + i]`, and it is a substring |
| `Text.NatToStringRoundTrip` | bot.py:785 | the decimal digits `str(n)` writes denote n |
| `SqlLike.SurroundedLikeIsContainment` | bot.py:649-655 | for a slice without `%` or `_`, `t LIKE '%'+q+'%'` holds exactly when q occurs in t up to ASCII case |
| `SqlLike.SubstringPatternMatches` | bot.py:649-655 | a text matches the pattern built from any of its substrings, wildcards included |
| `FactStore.MatchIsFoldedContainment` | bot.py:649-655 | the fact matcher is case-folded containment of `fact[5:15]` when the slice has no wildcard |
| `FactStore.ShortCandidateMatchesEverything` | bot.py:654 | a candidate of at most 5 characters has an empty slice and matches every stored fact |
| `FactStore.CandidateMatchesItself` | bot.py:649-657 | a candidate always matches a stored fact with its own text |
| `FactStore.FirstMatchFrom` | bot.py:649-657 | `fetchone` returns the first matching row of the user in table order, or none exactly when no row of the user matches |
| `FactStore.IngestOne` | bot.py:642-679 | a non-dict or a dict without "fact" is skipped; a match is overwritten (text, confidence, source, timestamp; never category) only at strictly higher confidence; otherwise the candidate is appended with 0.7/'general' defaults |
| `FactStore.Ingest` | bot.py:642-679 | a batch appends at most one row per candidate, all the user's, with consecutive ids; existing rows change only to higher confidence and keep id, owner, category and usage |
| `FactStore.IngestCountBound` | bot.py:642-679 | the user's fact count grows by at most the number of candidates; other users' counts are unchanged |
| `FactStore.CountFor` | bot.py:690-703 | `get_user_fact_count`: at most the number of rows; `FactStore.CountForZeroIffNoneOwned` states when it is 0, and `FactStore.IngestCountBound` and `FactStore.OneBatchCanOvershootQuota` state how ingest changes it |
| `FactStore.CountForZeroIffNoneOwned` | bot.py:697-698 | `COUNT(*)` of the user's facts is 0 exactly when no stored row belongs to the user |
| `FactStore.IngestRemembers` | bot.py:657-679 | after a usable candidate is ingested, some fact of the user matches it |
| `FactStore.MoreConfidentCandidateWins` | bot.py:658-669 | of two candidates in a batch that match no stored fact of the user, where the second matches the first, the stored fact is the more confident one, and a tie keeps the first |
| `FactStore.ExtractionRunsEveryFifthMessage` | bot.py:578-581 | after a start, the extraction following the n-th message passes the cadence test exactly when n % 5 == 0, under either numbering |
| `FactStore.ImplicitStartLeavesExtractionDue` | bot.py:514-516 | a log that starts the conversation itself leaves count 0, so the extraction it spawns passes the cadence test; with the corrected numbering it would not |
| `FactStore.ExtractionGate` | bot.py:578-588 | extraction proceeds exactly when (no context or count % 5 == 0) and (subscribed or fewer than 50 facts); the subscription check runs only after the cadence test |
| `FactStore.ExtractFacts` | bot.py:574-688 | a closed gate changes no facts; an open gate ingests the batch; a non-subscriber gains facts only when below the limit before the batch |
| `FactStore.FreshCandidatesAreAllInserted` | bot.py:670-679 | candidates that match no fact and no earlier candidate are all inserted |
| `FactStore.OneBatchCanOvershootQuota` | bot.py:583-588 | a free user at 49 facts whose batch brings two new facts ends at 51 |
| `FactStore.ImportFacts` | bot.py:1461-1495 | existing rows are untouched; the new rows come from distinct items in item order (`origin`); each is the user's, with consecutive ids and no source, and carries its item's text with its confidence and category (defaults 0.8/'imported'); an item adds a row exactly when it is usable and no fact present at its turn matches it; every usable item ends up matched; the count is the number of rows added |
| `FactStore.FreshItemsAreAllImported` | bot.py:1467-1492 | when no item matches a stored fact of the user or an earlier item's text, every item adds a row |
| `FactStore.ImportMemory` | bot.py:1440-1501 | only a current subscriber imports, and the check's side effect is kept; for a subscriber, a parse failure answers invalid_json, a non-object or a missing "facts" key answers invalid_format, and a non-list answers invalid_facts, each with no change; a fact list gives exactly the rows, origins and count `ImportFacts` guarantees |
| `FactSelector.RankIsTotalPreorder` | bot.py:723 | `confidence DESC, last_used ASC` (never-used first), then `usage_count ASC`, is a total preorder |
| `FactSelector.Filter` | bot.py:711-721 | keeps exactly the user's rows in the listed categories (all categories when the list is empty), with their multiplicities |
| `FactSelector.SelectFacts` | bot.py:711-727 | min(limit, eligible) rows (all for a negative limit), a sub-multiset of the eligible rows, sorted by rank, each of the user and in the categories, and no dropped row ranks above a chosen one |
| `FactSelector.TouchUsed` | bot.py:729-741 | exactly the user's rows whose text is listed get `last_used = now` and one more use; every other row is unchanged; an empty list changes nothing |
| `FactSelector.GetUserFacts` | bot.py:705-754 | returns the selection as read before the update; an empty selection changes nothing; otherwise a row is touched exactly when it is the user's and its text equals a returned text |
| `FactSelector.SelectedRowsAreTouched` | bot.py:729-741 | a row of the user with a returned text is touched even if the category filter excluded it, and its category is kept |
| `FactSelector.OtherUsersUntouched` | bot.py:735-737 | other users' facts are never changed |
| `FactSelector.UsedFactYieldsToStalerPeer` | bot.py:723-741 | after feedback, an equally confident fact that was not returned and is unused, or was used before now, ranks strictly ahead of a touched one |
| `History.CurrentRows` | bot.py:768-777 | keeps exactly the user's rows of the current conversation, with their multiplicities |
| `History.RecentRows` | bot.py:768-784 | min(limit, rows) rows of the current conversation, oldest first by number, and no left-out row has a higher number than a shown one |
| `History.NewestReversedIsTopK` | bot.py:773-784 | the `limit` highest-numbered rows, reversed, are ascending by number and outrank every dropped row |
| `History.HistoryLinesRenderEach` | bot.py:783-788 | exchange i is rendered by lines 4i to 4i+3, in order: `[Message #n]`, `User: …`, `Bot: …`, blank |
| `History.RenderHistory` | bot.py:790-791 | the joined text starts with `[Message #`, ends with a newline, and is never the sentinel |
| `History.GetConversationHistory` | bot.py:756-796 | the sentinel is returned exactly when there is no context, the limit is 0, or the current conversation has no rows; otherwise the rendered recent rows are returned |
| `History.JoinLinesEndsWithLast` | bot.py:791 | joining at least two lines gives the join of all but the last, a newline, then the last |
| `Sorting.SortBySorted` | bot.py:723 | sorting by a total preorder yields a sorted permutation |
| `Sorting.LimitOfSortedIsTopK` | bot.py:723-724 | LIMIT on a sorted list keeps a sorted sub-multiset that precedes everything it drops |
| `Subscription.IsUserSubscribed` | bot.py:1205-1234 | active exactly when the user has an end date after now and the flag is 1; only the flag of a lapsed record is cleared; nothing else changes |
| `Subscription.SubscriptionCheckIsIdempotent` | bot.py:1228-1232 | a second check at the same time answers the same and changes nothing |
| `Subscription.CheckLeavesNoLapsedFlag` | bot.py:1231-1232 | after the check, no record is lapsed with its flag still set |
| `Subscription.PlanFor` | bot.py:1303-1310 | only "monthly" (150 points, 30 days) and "yearly" (1800 points, 365 days) are plans |
| `Subscription.UserScore` | bot.py:492-505 | `get_user_score`: the score in the user's row, 0 for a user without one |
| `Subscription.PurchaseSpendsOnlyTheBuyersPoints` | bot.py:1311-1331 | a purchase lowers the buyer's score by exactly the plan's price and no other score; a failed purchase changes no score |
| `Subscription.PurchaseSubscription` | bot.py:1296-1339 | an invalid type, or a score below the price, fails with no state change (shortfall = price - score > 0); otherwise exactly the price is deducted and the end becomes now + days with the flag set |
| `Subscription.PurchaseActivatesUntilEnd` | bot.py:1321-1331 | after a purchase the user is subscribed at every moment up to the end, and the points left plus the price are the points before |
| `Subscription.FindUnusedCode` | bot.py:1379-1387 | finds an unused row with the code, and finds none exactly when there is none |
| `Subscription.CodeDays` | bot.py:1402-1410 | a yearly code grants 365 days; every other type grants 30 |
| `Subscription.SubscriptionEnd` | bot.py:1275-1294 | `get_subscription_end_date`: the end date in the user's row, none for a user without a row |
| `Subscription.SubscribedIffEndAhead` | bot.py:1205-1234 | the check never moves an end date, and answers subscribed exactly when the end date `get_subscription_end_date` reads is after now and the flag is set |
| `Subscription.EndDateReadsBack` | bot.py:1321-1429 | a purchase or a redemption sets the end date that is read back afterwards; a code redeemed by a user without a row sets none |
| `Subscription.RedeemCode` | bot.py:1372-1437 | an unknown or used code fails with no change; otherwise that row alone is marked used by the user at now, and the end becomes (current end if in the future, else now) + days |
| `Subscription.RedeemingTwiceFails` | bot.py:1379-1399 | with unique codes, redeeming a code a second time, by anyone, fails |
| `Subscription.RedeemExtendsSubscription` | bot.py:1413-1429 | redeeming leaves a known user subscribed, and a live subscription is extended past its old end |
| `Subscription.FormatCode` | bot.py:1345-1350 | joining three 3-character groups of upper-case letters and digits gives the `XXX-YYY-YYY` shape |
| `Subscription.CodeFormatRoundTrip` | bot.py:1345-1350 | a code of that shape is exactly the join of its three groups |

## Left out

- Telegram handlers, menus, the Flask keep-alive thread and Firebase set-up are transport and I/O.
- The Gemini calls and their prompts are left out: the model is opaque. Candidates reach `ExtractFacts` as a parameter.
- Code-fence and regex extraction, and `json.loads` of model output and import files, are library parsing. `ExtractFacts` starts from a decoded candidate list. `ImportMemory` starts from a decoded `ImportPayload`.
- Fact values that are not strings are left out. A `null`, number or object as "fact" makes `fact[5:15]` raise. A list slices, and raises only when the INSERT or UPDATE binds it (bot.py:664, 672); a list that matches a stored fact without a higher confidence is skipped with no change. A raise rolls back the whole batch.
- Confidence and category values of another type are left out: `Candidate` holds a number for "confidence" and a string for "category", or nothing when the key is absent. A JSON `null` reads as `None`. Compared with a stored confidence it raises (bot.py:661). Inserted, it stores NULL, and a string stores TEXT, both of which order differently under `confidence DESC` (bot.py:723).
- An exception in the middle of a loop (which discards the uncommitted batch) is not modelled, and neither is the "error" return of any exception handler.
- The SQLite schema, connections and commits are not modelled: tables are sequences and maps.
- `datetime.now()`, `uuid4()` and row ids are parameters. Each operation uses one `now`, where the source reads the clock several times.
- Random generation of redemption codes and its retry loop are left out. Only the format (`FormatCode`, `IsCodeFormat`) is modelled.
- `update_user_stats`, `total_messages` and `last_active` are left out, and so is `context_used` in the conversation row: they do not affect the core.
- The float formatting `{confidence:.2f}` of `get_user_facts` is left out. `GetUserFacts` returns the selected rows rather than formatted strings.
- `asyncio.create_task` scheduling and the hourly inactivity loop are concurrency and timers.
- Memory and conversation export are filesystem I/O.
- Text.Lower: `str.lower()` is modelled for ASCII letters only. Other letters are kept as they are, so `NormalizeArabicName` does not fold non-ASCII capitals.
- Localization.Format: only `{name}` fields are modelled. Texts with positional fields, format specs or `{{` escapes are outside it. A `}` outside a field is read as literal text, where `str.format` raises on a single one and turns `}}` into `}`. `FormatOneField` therefore requires the text around its field to hold no brace. The `LANGUAGES` table uses none of these forms.
- Points.MessagePoints: the exact sum is computed in the body. The contract pins down only the range and the two extreme cases, and `UserTextExtensionNeverLowersPoints` states monotonicity.
- History.RecentRows: ties in `message_number` are left in an unspecified order, as in SQLite. The contract speaks of numbers only, so the exact order of duplicate numbers is not pinned down.

## Findings

| source | as written | input that shows it | evidently intended | confidence | as-written member | corrected member |
|---|---|---|---|---|---|---|
| bot.py:514-516 | `log_conversation` without a context starts one with `message_count = 0` and returns 1 | a user with no context logs two messages: both are numbered `[Message #1]` | the implicit start counts its own message (count 1), so numbers run 1, 2, … | high; not executed | `Session.ImplicitStartRepeatsNumberOne` | `Session.IntendedNumberingHasNoRepeats` |

`Session.NextMessageNumber` and `Session.LogConversation` keep the numbering as written.
`Session.NextMessageNumberIntended` and `Session.LogConversationIntended` are the corrected numbering and log.
`Session.LogVariantsDifferOnlyOnImplicitStart` shows the two logs agree whenever a context exists. `generate_ai_response` creates one before it answers (bot.py:868-869), so the repeat shows only on a log with no context before it.

=== FILE: facts.dfy ===
/** The fact store: the fuzzy matcher, the merge/ingest policy of
    `extract_facts` with its cadence and quota gate, and the dedup loop of
    `import_memory_from_json`. */
module FactStore {
  import opened Types
  import opened Text
  import opened SqlLike
  import Subscription
  import Session

  /** `FREE_MEMORY_LIMIT`. */
  const FreeMemoryLimit: int := 50
  /** Extraction runs on every fifth message. */
  const ExtractionCadence: int := 5

  const ExtractedConfidenceDefault: real := 0.7
  const ExtractedCategoryDefault: string := "general"
  const ImportedConfidenceDefault: real := 0.8
  const ImportedCategoryDefault: string := "imported"

  // ---------------------------------------------------------------- matching

  /** The part of a candidate the matcher compares: `fact[5:15]`. */
  function MatchSlice(candidate: string): string
  {
    PySlice(candidate, 5, 15)
  }

  /** `stored LIKE '%' || fact[5:15] || '%'`. */
  predicate Matches(candidate: string, stored: string)
  {
    Like("%" + MatchSlice(candidate) + "%", stored)
  }

  /** Without `%` or `_` in the slice, matching is case-folded containment
      of the slice. */
  lemma MatchIsFoldedContainment(candidate: string, stored: string)
    requires NoWildcards(MatchSlice(candidate))
    ensures Matches(candidate, stored) <==> ContainsFolded(stored, MatchSlice(candidate))
  {
    SurroundedLikeIsContainment(MatchSlice(candidate), stored);
  }

  /** A candidate of at most five characters has an empty slice and matches
      every stored fact. */
  lemma ShortCandidateMatchesEverything(candidate: string, stored: string)
    requires |candidate| <= 5
    ensures Matches(candidate, stored)
  {
    assert MatchSlice(candidate) == "";
    EmptySliceMatchesAll(stored);
  }

  /** A candidate matches its own text. */
  lemma CandidateMatchesItself(text: string)
    ensures Matches(text, text)
  {
    SubstringPatternMatches(MatchSlice(text), text);
  }

  /** Fact `i` belongs to `user` and the candidate matches it. */
  predicate MatchesAt(facts: seq<Fact>, user: UserId, candidate: string, i: int)
  {
    0 <= i < |facts| && facts[i].userId == user && Matches(candidate, facts[i].text)
  }

  /** `SELECT ... WHERE user_id = ? AND fact LIKE ?` then `fetchone()`: the
      first matching row in table order, from index `from` on. */
  function FirstMatchFrom(facts: seq<Fact>, user: UserId, candidate: string, from: nat): (r: Option<nat>)
    requires from <= |facts|
    ensures r.Some? ==> from <= r.value && MatchesAt(facts, user, candidate, r.value)
    ensures r.Some? ==> forall j | from <= j < r.value :: !MatchesAt(facts, user, candidate, j)
    ensures r.None? <==> forall j | from <= j < |facts| :: !MatchesAt(facts, user, candidate, j)
    decreases |facts| - from
  {
    if from == |facts| then None
    else if MatchesAt(facts, user, candidate, from) then Some(from)
    else FirstMatchFrom(facts, user, candidate, from + 1)
  }

  function FirstMatch(facts: seq<Fact>, user: UserId, candidate: string): Option<nat>
  {
    FirstMatchFrom(facts, user, candidate, 0)
  }

  /** Some fact of the user matches the candidate. */
  predicate Known(facts: seq<Fact>, user: UserId, candidate: string)
  {
    exists i | 0 <= i < |facts| :: MatchesAt(facts, user, candidate, i)
  }

  // ---------------------------------------------------------------- counting

  /** `SELECT COUNT(*) FROM user_facts WHERE user_id = ?`. */
  function CountFor(facts: seq<Fact>, user: UserId): (r: nat)
    ensures r <= |facts|
  {
    if |facts| == 0 then 0
    else CountFor(facts[..|facts| - 1], user) + (if facts[|facts| - 1].userId == user then 1 else 0)
  }

  /** A user has no facts exactly when no row is theirs. */
  lemma {:induction false} CountForZeroIffNoneOwned(facts: seq<Fact>, user: UserId)
    ensures CountFor(facts, user) == 0 <==> forall i | 0 <= i < |facts| :: facts[i].userId != user
    decreases |facts|
  {
    if |facts| > 0 {
      var init := facts[..|facts| - 1];
      CountForZeroIffNoneOwned(init, user);
      assert forall i | 0 <= i < |init| :: init[i] == facts[i];
    }
  }

  lemma {:induction false} CountForAllOwn(facts: seq<Fact>, user: UserId)
    requires forall i | 0 <= i < |facts| :: facts[i].userId == user
    ensures CountFor(facts, user) == |facts|
  {
    if |facts| > 0 {
      CountForAllOwn(facts[..|facts| - 1], user);
    }
  }

  /** Two tables whose first `|a|` rows have the same owners, the second one
      extended by rows of `user` only, differ in count by the extension. */
  lemma {:induction false} CountForSameOwners(a: seq<Fact>, b: seq<Fact>, user: UserId, u: UserId)
    requires |a| <= |b|
    requires forall i | 0 <= i < |a| :: b[i].userId == a[i].userId
    requires forall i | |a| <= i < |b| :: b[i].userId == user
    ensures CountFor(b, u) == CountFor(a, u) + (if u == user then |b| - |a| else 0)
    decreases |b|
  {
    if |b| > |a| {
      CountForSameOwners(a, b[..|b| - 1], user, u);
    } else if |a| > 0 {
      CountForSameOwners(a[..|a| - 1], b[..|b| - 1], user, u);
    }
  }

  // ---------------------------------------------------------------- ingest

  /** How an existing row may evolve under ingestion: a row changes only if
      it is the ingesting user's and only to a strictly higher confidence,
      taking the batch's source message and timestamp; its id, owner,
      category and usage data never change. */
  predicate Evolves(before: Fact, after: Fact, user: UserId, messageId: int, now: Time)
  {
    && after.id == before.id
    && after.userId == before.userId
    && after.category == before.category
    && after.lastUsed == before.lastUsed
    && after.usageCount == before.usageCount
    && (after != before ==>
          && before.userId == user
          && after.confidence > before.confidence
          && after.sourceMessageId == Some(messageId)
          && after.timestamp == now)
  }

  /** The row `extract_facts` inserts for an unmatched candidate. */
  function NewFact(id: int, user: UserId, text: string, messageId: Option<int>, confidence: real, category: string, now: Time): Fact
  {
    Fact(id, user, text, messageId, confidence, category, now, None, 0)
  }

  /** A candidate the loop acts on: a dict with a "fact" key. */
  predicate Usable(item: Candidate)
  {
    item.FactDict? && item.fact.Some?
  }

  /** One pass of the `for fact_item in facts` loop of `extract_facts`. A
      non-dict or an item without "fact" is skipped. A candidate matching a
      fact of the user overwrites the first such fact's text, confidence,
      source and timestamp when its confidence is strictly higher and is
      dropped otherwise; an unmatched candidate is inserted with confidence
      0.7 and category 'general' unless it gives its own. */
  function IngestOne(facts: seq<Fact>, user: UserId, item: Candidate, messageId: int, now: Time, nextId: int)
    : (r: (seq<Fact>, int))
    ensures !Usable(item) ==> r == (facts, nextId)
    ensures Usable(item) && Known(facts, user, item.fact.value) ==>
      && r.1 == nextId
      && |r.0| == |facts|
      && var i := FirstMatch(facts, user, item.fact.value).value;
         var confidence := item.confidence.GetOr(ExtractedConfidenceDefault);
         && (forall j | 0 <= j < |facts| && j != i :: r.0[j] == facts[j])
         && r.0[i] == (if confidence > facts[i].confidence
                       then facts[i].(text := item.fact.value, confidence := confidence,
                                      sourceMessageId := Some(messageId), timestamp := now)
                       else facts[i])
    ensures Usable(item) && !Known(facts, user, item.fact.value) ==>
      && r.1 == nextId + 1
      && r.0 == facts + [NewFact(nextId, user, item.fact.value, Some(messageId),
                                 item.confidence.GetOr(ExtractedConfidenceDefault),
                                 item.category.GetOr(ExtractedCategoryDefault), now)]
    ensures |facts| <= |r.0| <= |facts| + 1 && r.1 == nextId + (|r.0| - |facts|)
    ensures forall i | 0 <= i < |facts| :: Evolves(facts[i], r.0[i], user, messageId, now)
    ensures forall i | |facts| <= i < |r.0| :: r.0[i].userId == user
  {
    if !Usable(item) then (facts, nextId)
    else
      var text := item.fact.value;
      var confidence := item.confidence.GetOr(ExtractedConfidenceDefault);
      var category := item.category.GetOr(ExtractedCategoryDefault);
      match FirstMatch(facts, user, text)
      case Some(i) =>
        if confidence > facts[i].confidence then
          (facts[i := facts[i].(text := text, confidence := confidence, sourceMessageId := Some(messageId), timestamp := now)], nextId)
        else (facts, nextId)
      case None =>
        (facts + [NewFact(nextId, user, text, Some(messageId), confidence, category, now)], nextId + 1)
  }

  /** The whole merge loop over the decoded candidates. Later candidates see
      the rows earlier ones inserted or rewrote. */
  function Ingest(facts: seq<Fact>, user: UserId, items: seq<Candidate>, messageId: int, now: Time, nextId: int)
    : (r: (seq<Fact>, int))
    ensures |facts| <= |r.0| <= |facts| + |items|
    ensures r.1 == nextId + (|r.0| - |facts|)
    ensures forall i | 0 <= i < |facts| :: Evolves(facts[i], r.0[i], user, messageId, now)
    ensures forall i | |facts| <= i < |r.0| ::
      && r.0[i].userId == user && r.0[i].id == nextId + (i - |facts|)
      && r.0[i].sourceMessageId == Some(messageId) && r.0[i].timestamp == now
      && r.0[i].lastUsed.None? && r.0[i].usageCount == 0
    decreases |items|
  {
    if |items| == 0 then (facts, nextId)
    else
      var (facts1, nextId1) := IngestOne(facts, user, items[0], messageId, now, nextId);
      var (facts2, nextId2) := Ingest(facts1, user, items[1..], messageId, now, nextId1);
      assert forall i | |facts| <= i < |facts1| ::
        (facts1[i].id == nextId && facts1[i].sourceMessageId == Some(messageId)
         && facts1[i].timestamp == now && facts1[i].lastUsed.None? && facts1[i].usageCount == 0);
      assert forall i | |facts| <= i < |facts1| :: Evolves(facts1[i], facts2[i], user, messageId, now);
      (facts2, nextId2)
  }

  /** Ingestion adds at most one fact per candidate, all of them the user's;
      every other user's count is unchanged. */
  lemma IngestCountBound(facts: seq<Fact>, user: UserId, items: seq<Candidate>, messageId: int, now: Time, nextId: int, u: UserId)
    ensures var after := Ingest(facts, user, items, messageId, now, nextId).0;
      && CountFor(after, user) <= CountFor(facts, user) + |items|
      && (u != user ==> CountFor(after, u) == CountFor(facts, u))
  {
    var after := Ingest(facts, user, items, messageId, now, nextId).0;
    CountForSameOwners(facts, after, user, user);
    CountForSameOwners(facts, after, user, u);
  }

  /** After a usable candidate is ingested the user has a fact matching it:
      either the one it matched (rewritten or not) or its own new row. */
  lemma IngestRemembers(facts: seq<Fact>, user: UserId, item: Candidate, messageId: int, now: Time, nextId: int)
    requires Usable(item)
    ensures Known(IngestOne(facts, user, item, messageId, now, nextId).0, user, item.fact.value)
  {
    var text := item.fact.value;
    var after := IngestOne(facts, user, item, messageId, now, nextId).0;
    CandidateMatchesItself(text);
    if Known(facts, user, text) {
      var i := FirstMatch(facts, user, text).value;
      assert MatchesAt(after, user, text, i);
    } else {
      assert MatchesAt(after, user, text, |facts|);
    }
  }

  /** Merging is last-write-wins on confidence: a candidate whose slice
      matches the row an earlier one created replaces it only if it is more
      confident. With 0.9 then 0.95 the stored fact is the 0.95 candidate;
      with 0.95 then 0.9 it stays the 0.95 one. */
  lemma MoreConfidentCandidateWins(facts: seq<Fact>, user: UserId, first: string, second: string, c1: real, c2: real, messageId: int, now: Time, nextId: int)
    requires !Known(facts, user, first) && !Known(facts, user, second)
    requires Matches(second, first)
    ensures var items := [FactDict(Some(first), Some(c1), None), FactDict(Some(second), Some(c2), None)];
      var after := Ingest(facts, user, items, messageId, now, nextId).0;
      && |after| == |facts| + 1
      && after[..|facts|] == facts
      && after[|facts|].text == (if c2 > c1 then second else first)
      && after[|facts|].confidence == (if c2 > c1 then c2 else c1)
      && after[|facts|].category == ExtractedCategoryDefault
  {
    var items := [FactDict(Some(first), Some(c1), None), FactDict(Some(second), Some(c2), None)];
    var (facts1, id1) := IngestOne(facts, user, items[0], messageId, now, nextId);
    assert facts1 == facts + [NewFact(nextId, user, first, Some(messageId), c1, ExtractedCategoryDefault, now)];
    assert MatchesAt(facts1, user, second, |facts|);
    forall j | 0 <= j < |facts|
      ensures !MatchesAt(facts1, user, second, j)
    {
      assert facts1[j] == facts[j];
      assert !MatchesAt(facts, user, second, j);
    }
    assert FirstMatch(facts1, user, second) == Some(|facts|);
    var (facts2, id2) := IngestOne(facts1, user, items[1], messageId, now, id1);
    assert items[1..] == [items[1]];
    assert Ingest(facts1, user, items[1..], messageId, now, id1) == Ingest(facts2, user, [], messageId, now, id2);
  }

  // ---------------------------------------------------------------- gate

  /** The cadence test of `extract_facts`: no context, or a count divisible
      by five (Python's `%` and Dafny's agree for a positive divisor). */
  predicate CadenceDue(contexts: Contexts, user: UserId)
  {
    user !in contexts || contexts[user].messageCount % ExtractionCadence == 0
  }

  /** After a fresh start, the extraction that follows the n-th logged
      message passes the cadence test exactly when n is a multiple of five. */
  lemma ExtractionRunsEveryFifthMessage(intended: bool, contexts: Contexts, user: UserId, id: string, freshId: string, n: nat)
    ensures var final := Session.NumberRun(intended, Session.StartNewConversation(contexts, user, id), user, freshId, n).1;
      CadenceDue(final, user) <==> n % ExtractionCadence == 0
  {
    Session.StartThenLogNumbersOneToN(intended, contexts, user, id, freshId, n);
  }

  /** The extraction spawned by a log that started the conversation itself
      passes the cadence test, since the stored count is 0; with the
      corrected numbering the count is 1 and it does not. */
  lemma ImplicitStartLeavesExtractionDue(
    contexts: Contexts, rows: seq<ConversationRow>, users: Users,
    user: UserId, userMessage: string, botResponse: string, freshId: string, rowId: int)
    requires user !in contexts
    ensures CadenceDue(Session.LogConversation(contexts, rows, users, user, userMessage, botResponse, freshId, rowId).contexts, user)
    ensures !CadenceDue(Session.LogConversationIntended(contexts, rows, users, user, userMessage, botResponse, freshId, rowId).contexts, user)
  {
  }

  /** The two early returns of `extract_facts`. The subscription check (with
      its side effect) runs only once the cadence test has passed, and the
      quota is read once for the whole batch. */
  function ExtractionGate(contexts: Contexts, users: Users, facts: seq<Fact>, user: UserId, now: Time): (r: (Users, bool))
    ensures r.1 <==>
      && CadenceDue(contexts, user)
      && (Subscription.IsUserSubscribed(users, user, now).1 || CountFor(facts, user) < FreeMemoryLimit)
    ensures r.0 == if CadenceDue(contexts, user) then Subscription.IsUserSubscribed(users, user, now).0 else users
  {
    if !CadenceDue(contexts, user) then (users, false)
    else
      var (users', subscribed) := Subscription.IsUserSubscribed(users, user, now);
      if !subscribed && CountFor(facts, user) >= FreeMemoryLimit then (users', false)
      else (users', true)
  }

  /** `extract_facts` after the model call: the gate, then the merge loop
      over the decoded candidates. */
  function ExtractFacts(contexts: Contexts, users: Users, facts: seq<Fact>, user: UserId, items: seq<Candidate>,
                        messageId: int, now: Time, nextId: int): (r: (Users, seq<Fact>, int))
    ensures !ExtractionGate(contexts, users, facts, user, now).1 ==> r.1 == facts && r.2 == nextId
    ensures ExtractionGate(contexts, users, facts, user, now).1 ==>
      (r.1, r.2) == Ingest(facts, user, items, messageId, now, nextId)
    ensures r.0 == ExtractionGate(contexts, users, facts, user, now).0
    ensures r.1 != facts && !Subscription.IsUserSubscribed(users, user, now).1 ==>
      CountFor(facts, user) < FreeMemoryLimit
  {
    var (users', proceed) := ExtractionGate(contexts, users, facts, user, now);
    if !proceed then (users', facts, nextId)
    else
      var (facts', nextId') := Ingest(facts, user, items, messageId, now, nextId);
      (users', facts', nextId')
  }

  /** Every candidate is usable, none matches a fact the user already has,
      and none matches an earlier candidate's text. */
  predicate AllFresh(facts: seq<Fact>, user: UserId, items: seq<Candidate>)
  {
    && (forall k | 0 <= k < |items| :: Usable(items[k]) && !Known(facts, user, items[k].fact.value))
    && (forall j, k | 0 <= j < k < |items| :: !Matches(items[k].fact.value, items[j].fact.value))
  }

  /** Candidates that match nothing are all inserted: the batch grows the
      table by exactly its length. */
  lemma {:induction false} FreshCandidatesAreAllInserted(facts: seq<Fact>, user: UserId, items: seq<Candidate>, messageId: int, now: Time, nextId: int)
    requires AllFresh(facts, user, items)
    ensures |Ingest(facts, user, items, messageId, now, nextId).0| == |facts| + |items|
    decreases |items|
  {
    if |items| > 0 {
      var (facts1, nextId1) := IngestOne(facts, user, items[0], messageId, now, nextId);
      assert |facts1| == |facts| + 1;
      forall k | 0 <= k < |items[1..]|
        ensures !Known(facts1, user, items[1..][k].fact.value)
      {
        var text := items[1..][k].fact.value;
        assert items[1..][k] == items[k + 1];
        forall i | 0 <= i < |facts1|
          ensures !MatchesAt(facts1, user, text, i)
        {
          if i < |facts| {
            assert facts1[i] == facts[i];
            assert !MatchesAt(facts, user, text, i);
          } else {
            assert facts1[i].text == items[0].fact.value;
          }
        }
      }
      assert AllFresh(facts1, user, items[1..]);
      FreshCandidatesAreAllInserted(facts1, user, items[1..], messageId, now, nextId1);
    }
  }

  /** The quota is checked once per batch: a free user one fact below the
      limit whose batch brings two new facts ends one fact above it. */
  lemma OneBatchCanOvershootQuota(contexts: Contexts, users: Users, facts: seq<Fact>, user: UserId,
                                  items: seq<Candidate>, messageId: int, now: Time, nextId: int)
    requires CadenceDue(contexts, user)
    requires !Subscription.IsUserSubscribed(users, user, now).1
    requires CountFor(facts, user) == FreeMemoryLimit - 1
    requires |items| == 2 && AllFresh(facts, user, items)
    ensures CountFor(ExtractFacts(contexts, users, facts, user, items, messageId, now, nextId).1, user) == FreeMemoryLimit + 1
  {
    var after := Ingest(facts, user, items, messageId, now, nextId).0;
    FreshCandidatesAreAllInserted(facts, user, items, messageId, now, nextId);
    CountForSameOwners(facts, after, user, user);
  }

  // ---------------------------------------------------------------- import

  /** What `json.loads` of an import file can turn out to be. */
  datatype ImportPayload =
    | InvalidJson
    | NotAnObject
    | NoFactsKey
    | FactsNotAList
    | FactList(items: seq<Candidate>)

  datatype ImportOutcome =
    | Imported(count: nat)
    | SubscriptionRequired
    | InvalidJsonError
    | InvalidFormat
    | InvalidFacts

  /** `f` is the row the import inserts for `item`. */
  predicate ImportedFrom(f: Fact, item: Candidate)
  {
    && Usable(item)
    && f.text == item.fact.value
    && f.confidence == item.confidence.GetOr(ImportedConfidenceDefault)
    && f.category == item.category.GetOr(ImportedCategoryDefault)
  }

  /** The row fields the import fixes: owner, id, no source, the import
      time, never used. */
  predicate FreshImportRow(f: Fact, user: UserId, id: int, now: Time)
  {
    && f.userId == user && f.id == id
    && f.sourceMessageId.None? && f.timestamp == now
    && f.lastUsed.None? && f.usageCount == 0
  }

  /** How many of the inserting item indices `origin` lie below `k`: the
      number of rows the import had added when it reached item `k`. */
  function AddedBefore(origin: seq<nat>, k: int): (r: nat)
    ensures r <= |origin|
  {
    if |origin| == 0 then 0
    else AddedBefore(origin[..|origin| - 1], k) + (if origin[|origin| - 1] < k then 1 else 0)
  }

  lemma {:induction false} AddedBeforeAll(origin: seq<nat>, k: int)
    requires forall j | 0 <= j < |origin| :: origin[j] < k
    ensures AddedBefore(origin, k) == |origin|
  {
    if |origin| > 0 {
      AddedBeforeAll(origin[..|origin| - 1], k);
    }
  }

  predicate StrictlyIncreasing(s: seq<nat>)
  {
    forall i, j | 0 <= i < j < |s| :: s[i] < s[j]
  }

  /** The rows `added` after `facts` by an import, with `origin[j]` the item
      that row `j` came from: the items are taken in order; each row was
      built from its item with the import's fixed fields, and no fact of the
      user present when it was inserted matched it. */
  predicate NewRowsFrom(facts: seq<Fact>, user: UserId, items: seq<Candidate>, now: Time, nextId: int,
                        added: seq<Fact>, origin: seq<nat>)
  {
    && |added| == |origin|
    && StrictlyIncreasing(origin)
    && (forall j | 0 <= j < |added| :: FreshImportRow(added[j], user, nextId + j, now))
    && (forall j | 0 <= j < |origin| :: origin[j] < |items| && ImportedFrom(added[j], items[origin[j]]))
    && (forall j | 0 <= j < |added| :: FirstMatch(facts + added[..j], user, added[j].text).None?)
  }

  /** The outcome of the import loop over `items`: the existing rows are kept
      as they were, the new rows come from the items as above, and every
      usable item that added no row was matched by a fact of the user
      present when its turn came. */
  predicate ImportedAsLoop(facts: seq<Fact>, user: UserId, items: seq<Candidate>, now: Time, nextId: int,
                           after: seq<Fact>, origin: seq<nat>)
  {
    && |facts| <= |after|
    && after[..|facts|] == facts
    && var added := after[|facts|..];
    && NewRowsFrom(facts, user, items, now, nextId, added, origin)
    && (forall k | 0 <= k < |items| && Usable(items[k]) && k !in origin ::
          FirstMatch(facts + added[..AddedBefore(origin, k)], user, items[k].fact.value).Some?)
  }

  /** What holds after the import loop has looked at `items[..k]` and added
      the rows `added`. */
  ghost predicate ImportInvariant(facts: seq<Fact>, added: seq<Fact>, origin: seq<nat>, user: UserId,
                                  items: seq<Candidate>, k: int, now: Time, nextId: int)
  {
    && 0 <= k <= |items|
    && NewRowsFrom(facts, user, items, now, nextId, added, origin)
    && |origin| <= k
    && (forall j | 0 <= j < |origin| :: origin[j] < k)
    && (forall m | 0 <= m < k && Usable(items[m]) && m !in origin ::
          FirstMatch(facts + added[..AddedBefore(origin, m)], user, items[m].fact.value).Some?)
    && (forall m | 0 <= m < k && Usable(items[m]) :: FirstMatch(facts + added, user, items[m].fact.value).Some?)
  }

  /** Skipping an item that is unusable or already known keeps the invariant. */
  lemma ImportSkipStep(facts: seq<Fact>, added: seq<Fact>, origin: seq<nat>, user: UserId,
                       items: seq<Candidate>, k: int, now: Time, nextId: int)
    requires ImportInvariant(facts, added, origin, user, items, k, now, nextId) && k < |items|
    requires Usable(items[k]) ==> FirstMatch(facts + added, user, items[k].fact.value).Some?
    ensures ImportInvariant(facts, added, origin, user, items, k + 1, now, nextId)
  {
    SkipKeepsTurns(facts, added, origin, user, items, k);
    SkipKeepsAllKnown(facts + added, user, items, k);
    assert NewRowsFrom(facts, user, items, now, nextId, added, origin);
  }

  lemma SkipKeepsAllKnown(after: seq<Fact>, user: UserId, items: seq<Candidate>, k: int)
    requires 0 <= k < |items|
    requires forall m | 0 <= m < k && Usable(items[m]) :: FirstMatch(after, user, items[m].fact.value).Some?
    requires Usable(items[k]) ==> FirstMatch(after, user, items[k].fact.value).Some?
    ensures forall m | 0 <= m < k + 1 && Usable(items[m]) :: FirstMatch(after, user, items[m].fact.value).Some?
  {
  }

  /** A skipped item `k` was matched by the rows present at its turn. */
  lemma SkipKeepsTurns(facts: seq<Fact>, added: seq<Fact>, origin: seq<nat>, user: UserId, items: seq<Candidate>, k: int)
    requires 0 <= k < |items| && |added| == |origin|
    requires forall j | 0 <= j < |origin| :: origin[j] < k
    requires forall m | 0 <= m < k && Usable(items[m]) && m !in origin ::
      FirstMatch(facts + added[..AddedBefore(origin, m)], user, items[m].fact.value).Some?
    requires Usable(items[k]) ==> FirstMatch(facts + added, user, items[k].fact.value).Some?
    ensures forall m | 0 <= m < k + 1 && Usable(items[m]) && m !in origin ::
      FirstMatch(facts + added[..AddedBefore(origin, m)], user, items[m].fact.value).Some?
  {
    AddedBeforeAll(origin, k);
    assert added[..AddedBefore(origin, k)] == added;
  }

  /** Inserting an unknown usable item keeps the invariant. */
  lemma ImportInsertStep(facts: seq<Fact>, added: seq<Fact>, origin: seq<nat>, user: UserId,
                         items: seq<Candidate>, k: int, now: Time, nextId: int, fact: Fact)
    requires ImportInvariant(facts, added, origin, user, items, k, now, nextId) && k < |items|
    requires Usable(items[k]) && FirstMatch(facts + added, user, items[k].fact.value).None?
    requires FreshImportRow(fact, user, nextId + |origin|, now) && ImportedFrom(fact, items[k])
    ensures ImportInvariant(facts, added + [fact], origin + [k], user, items, k + 1, now, nextId)
  {
    InsertKeepsNewRows(facts, added, origin, user, items, k, now, nextId, fact);
    InsertKeepsEarlierTurns(facts, added, origin, user, items, k, fact);
    InsertKeepsAllKnown(facts, added, user, items, k, fact);
    assert forall j | 0 <= j < |origin| + 1 :: (origin + [k])[j] < k + 1;
  }

  /** After inserting item `k`'s own row, items `0..k` are all matched. */
  lemma InsertKeepsAllKnown(facts: seq<Fact>, added: seq<Fact>, user: UserId, items: seq<Candidate>, k: int, fact: Fact)
    requires 0 <= k < |items|
    requires forall m | 0 <= m < k && Usable(items[m]) :: FirstMatch(facts + added, user, items[m].fact.value).Some?
    requires ImportedFrom(fact, items[k]) && fact.userId == user
    ensures forall m | 0 <= m < k + 1 && Usable(items[m]) :: FirstMatch(facts + (added + [fact]), user, items[m].fact.value).Some?
  {
    var text := items[k].fact.value;
    var after' := facts + (added + [fact]);
    assert after' == (facts + added) + [fact];
    forall m | 0 <= m < k + 1 && Usable(items[m])
      ensures FirstMatch(after', user, items[m].fact.value).Some?
    {
      if m < k {
        assert Known(facts + added, user, items[m].fact.value);
        KnownAfterAppend(facts + added, fact, user, items[m].fact.value);
      } else {
        CandidateMatchesItself(text);
        assert MatchesAt(after', user, text, |facts + added|);
      }
    }
  }

  /** The row inserted for item `k` extends the new rows. */
  lemma InsertKeepsNewRows(facts: seq<Fact>, added: seq<Fact>, origin: seq<nat>, user: UserId,
                           items: seq<Candidate>, k: int, now: Time, nextId: int, fact: Fact)
    requires NewRowsFrom(facts, user, items, now, nextId, added, origin)
    requires 0 <= k < |items| && forall j | 0 <= j < |origin| :: origin[j] < k
    requires FirstMatch(facts + added, user, fact.text).None?
    requires FreshImportRow(fact, user, nextId + |origin|, now) && ImportedFrom(fact, items[k])
    ensures NewRowsFrom(facts, user, items, now, nextId, added + [fact], origin + [k])
  {
    var added' := added + [fact];
    var origin' := origin + [k];
    forall j | 0 <= j < |added'|
      ensures FirstMatch(facts + added'[..j], user, added'[j].text).None?
    {
      if j < |added| {
        assert added'[..j] == added[..j];
        assert added'[j] == added[j];
      } else {
        assert added'[..j] == added;
      }
    }
    assert forall j | 0 <= j < |origin| :: origin'[j] == origin[j];
  }

  /** Inserting a row for item `k` leaves what earlier items saw at their
      turn as it was. */
  lemma InsertKeepsEarlierTurns(facts: seq<Fact>, added: seq<Fact>, origin: seq<nat>, user: UserId,
                                items: seq<Candidate>, k: int, fact: Fact)
    requires 0 <= k < |items| && |added| == |origin|
    requires forall m | 0 <= m < k && Usable(items[m]) && m !in origin ::
      FirstMatch(facts + added[..AddedBefore(origin, m)], user, items[m].fact.value).Some?
    ensures forall m | 0 <= m < k + 1 && Usable(items[m]) && m !in origin + [k] ::
      FirstMatch(facts + (added + [fact])[..AddedBefore(origin + [k], m)], user, items[m].fact.value).Some?
  {
    var added' := added + [fact];
    var origin' := origin + [k];
    assert origin'[..|origin|] == origin;
    forall m | 0 <= m < k + 1 && Usable(items[m]) && m !in origin'
      ensures FirstMatch(facts + added'[..AddedBefore(origin', m)], user, items[m].fact.value).Some?
    {
      assert m != k;
      assert AddedBefore(origin', m) == AddedBefore(origin, m);
      assert added'[..AddedBefore(origin, m)] == added[..AddedBefore(origin, m)];
    }
  }

  /** The dedup loop of `import_memory_from_json`: a usable candidate that no
      fact of the user matches is inserted (confidence 0.8 and category
      'imported' by default, no source message, no quota check); anything
      else is skipped. Existing rows are never touched. `origin` names the
      item behind each new row. */
  method ImportFacts(facts: seq<Fact>, user: UserId, items: seq<Candidate>, now: Time, nextId: int)
    returns (after: seq<Fact>, count: nat, ghost origin: seq<nat>)
    ensures count == |origin| <= |items|
    ensures ImportedAsLoop(facts, user, items, now, nextId, after, origin)
    ensures forall k | 0 <= k < |items| && Usable(items[k]) :: Known(after, user, items[k].fact.value)
  {
    after := facts;
    count := 0;
    origin := [];
    ghost var added: seq<Fact> := [];
    ImportStart(facts, user, items, now, nextId);
    var k := 0;
    while k < |items|
      invariant after == facts + added
      invariant ImportInvariant(facts, added, origin, user, items, k, now, nextId)
      invariant count == |origin|
    {
      var item := items[k];
      if Usable(item) && FirstMatch(after, user, item.fact.value).None? {
        var fact := NewFact(nextId + count, user, item.fact.value, None,
                            item.confidence.GetOr(ImportedConfidenceDefault),
                            item.category.GetOr(ImportedCategoryDefault), now);
        ImportInsertStep(facts, added, origin, user, items, k, now, nextId, fact);
        after := after + [fact];
        added := added + [fact];
        count := count + 1;
        origin := origin + [k];
      } else {
        ImportSkipStep(facts, added, origin, user, items, k, now, nextId);
      }
      k := k + 1;
    }
    ImportDone(facts, added, origin, user, items, now, nextId);
  }

  /** Before the first item nothing has been added. */
  lemma ImportStart(facts: seq<Fact>, user: UserId, items: seq<Candidate>, now: Time, nextId: int)
    ensures ImportInvariant(facts, [], [], user, items, 0, now, nextId)
  {
  }

  /** The invariant over all items is the loop's outcome. */
  lemma ImportDone(facts: seq<Fact>, added: seq<Fact>, origin: seq<nat>, user: UserId,
                   items: seq<Candidate>, now: Time, nextId: int)
    requires ImportInvariant(facts, added, origin, user, items, |items|, now, nextId)
    ensures ImportedAsLoop(facts, user, items, now, nextId, facts + added, origin)
    ensures forall k | 0 <= k < |items| && Usable(items[k]) :: Known(facts + added, user, items[k].fact.value)
  {
    var after := facts + added;
    assert after[..|facts|] == facts;
    assert after[|facts|..] == added;
    forall k | 0 <= k < |items| && Usable(items[k])
      ensures Known(after, user, items[k].fact.value)
    {
      assert FirstMatch(after, user, items[k].fact.value).Some?;
    }
  }

  /** The rows added before item `k`'s turn all came from earlier items. */
  lemma {:induction false} AddedBeforeComeEarlier(origin: seq<nat>, k: int, j: int)
    requires StrictlyIncreasing(origin) && 0 <= j < AddedBefore(origin, k)
    ensures origin[j] < k
    decreases |origin|
  {
    var init := origin[..|origin| - 1];
    assert StrictlyIncreasing(init);
    if j < AddedBefore(init, k) {
      AddedBeforeComeEarlier(init, k, j);
      assert origin[j] == init[j];
    } else if j < |init| {
      assert origin[j] < origin[|origin| - 1];
    }
  }

  /** The import inserts every item when no item matches a fact the user
      already has or an earlier item's text. */
  lemma FreshItemsAreAllImported(facts: seq<Fact>, user: UserId, items: seq<Candidate>, now: Time, nextId: int,
                                 after: seq<Fact>, origin: seq<nat>)
    requires ImportedAsLoop(facts, user, items, now, nextId, after, origin)
    requires AllFresh(facts, user, items)
    ensures forall k | 0 <= k < |items| :: k in origin
  {
    var added := after[|facts|..];
    forall k | 0 <= k < |items|
      ensures k in origin
    {
      if k !in origin {
        var text := items[k].fact.value;
        var seen := facts + added[..AddedBefore(origin, k)];
        var i := FirstMatch(seen, user, text).value;
        if i < |facts| {
          assert MatchesAt(facts, user, text, i);
        } else {
          var j := i - |facts|;
          AddedBeforeComeEarlier(origin, k, j);
        }
        assert false;
      }
    }
  }

  /** Appending a row never makes a known candidate unknown. */
  lemma KnownAfterAppend(facts: seq<Fact>, f: Fact, user: UserId, candidate: string)
    requires Known(facts, user, candidate)
    ensures Known(facts + [f], user, candidate)
  {
    var i :| 0 <= i < |facts| && MatchesAt(facts, user, candidate, i);
    assert MatchesAt(facts + [f], user, candidate, i);
  }

  /** `import_memory_from_json` on an already decoded file: only a current
      subscriber may import (the check may clear a lapsed flag); then the
      file must be an object whose "facts" is a list. */
  method ImportMemory(users: Users, facts: seq<Fact>, user: UserId, payload: ImportPayload, now: Time, nextId: int)
    returns (users': Users, after: seq<Fact>, outcome: ImportOutcome, ghost origin: seq<nat>)
    ensures users' == Subscription.IsUserSubscribed(users, user, now).0
    ensures outcome.SubscriptionRequired? <==> !Subscription.IsUserSubscribed(users, user, now).1
    ensures !outcome.Imported? ==> after == facts
    ensures outcome.Imported? <==> Subscription.IsUserSubscribed(users, user, now).1 && payload.FactList?
    ensures Subscription.IsUserSubscribed(users, user, now).1 ==>
      && (outcome.InvalidJsonError? <==> payload.InvalidJson?)
      && (outcome.InvalidFormat? <==> payload.NotAnObject? || payload.NoFactsKey?)
      && (outcome.InvalidFacts? <==> payload.FactsNotAList?)
    ensures outcome.Imported? ==>
      && outcome.count == |origin| <= |payload.items|
      && ImportedAsLoop(facts, user, payload.items, now, nextId, after, origin)
      && forall k | 0 <= k < |payload.items| && Usable(payload.items[k]) :: Known(after, user, payload.items[k].fact.value)
  {
    var subscribed;
    users', subscribed := Subscription.IsUserSubscribed(users, user, now).0, Subscription.IsUserSubscribed(users, user, now).1;
    after := facts;
    origin := [];
    if !subscribed {
      outcome := SubscriptionRequired;
      return;
    }
    match payload {
      case InvalidJson => outcome := InvalidJsonError;
      case NotAnObject => outcome := InvalidFormat;
      case NoFactsKey => outcome := InvalidFormat;
      case FactsNotAList => outcome := InvalidFacts;
      case FactList(items) =>
        var count;
        after, count, origin := ImportFacts(facts, user, items, now, nextId);
        outcome := Imported(count);
    }
  }
}

=== FILE: history.dfy ===
/** `get_conversation_history`: the last few exchanges of the user's current
    conversation, rendered oldest first for the prompt. */
module History {
  import opened Types
  import opened Text
  import opened Sorting

  const NoHistory: string := "No recent conversation history."

  /** `WHERE user_id = ? AND conversation_id = ?`, in table order. */
  function CurrentRows(rows: seq<ConversationRow>, user: UserId, conversationId: string): (r: seq<ConversationRow>)
    ensures forall i | 0 <= i < |r| :: r[i].userId == user && r[i].conversationId == conversationId
    ensures forall x :: multiset(r)[x] == (if x.userId == user && x.conversationId == conversationId then multiset(rows)[x] else 0)
  {
    if |rows| == 0 then []
    else
      assert rows == [rows[0]] + rows[1..];
      var rest := CurrentRows(rows[1..], user, conversationId);
      if rows[0].userId == user && rows[0].conversationId == conversationId then [rows[0]] + rest else rest
  }

  /** `ORDER BY message_number DESC`: `a` may be listed before `b`. */
  predicate NewerOrSame(a: ConversationRow, b: ConversationRow)
  {
    a.messageNumber >= b.messageNumber
  }

  lemma NewerOrSameIsTotalPreorder()
    ensures TotalPreorder(NewerOrSame)
  {
  }

  /** The rows the history shows: the `limit` highest-numbered rows of the
      conversation (all of them for a negative limit), turned oldest first
      by `reversed`. No row left out has a higher number than one shown. */
  function RecentRows(rows: seq<ConversationRow>, user: UserId, conversationId: string, limit: int): (r: seq<ConversationRow>)
    ensures limit >= 0 ==> |r| == Min(limit, |CurrentRows(rows, user, conversationId)|)
    ensures limit < 0 ==> |r| == |CurrentRows(rows, user, conversationId)|
    ensures multiset(r) <= multiset(CurrentRows(rows, user, conversationId))
    ensures forall x, y | x in multiset(CurrentRows(rows, user, conversationId)) - multiset(r) && y in multiset(r) ::
      x.messageNumber <= y.messageNumber
    ensures forall i | 0 <= i < |r| :: r[i].userId == user && r[i].conversationId == conversationId
    ensures forall i, j | 0 <= i < j < |r| :: r[i].messageNumber <= r[j].messageNumber
  {
    var current := CurrentRows(rows, user, conversationId);
    var r := Reverse(Limit(SortBy(current, NewerOrSame), limit));
    NewestReversedIsTopK(current, limit);
    forall i | 0 <= i < |r|
      ensures r[i].userId == user && r[i].conversationId == conversationId
    {
      assert r[i] in multiset(r);
      assert multiset(current)[r[i]] > 0;
    }
    r
  }

  /** The `limit` highest-numbered rows, oldest first, are a sub-multiset of
      the rows and outrank every row left out. */
  lemma NewestReversedIsTopK(current: seq<ConversationRow>, limit: int)
    ensures var r := Reverse(Limit(SortBy(current, NewerOrSame), limit));
      && multiset(r) <= multiset(current)
      && (forall x, y | x in multiset(current) - multiset(r) && y in multiset(r) :: x.messageNumber <= y.messageNumber)
      && (forall i, j | 0 <= i < j < |r| :: r[i].messageNumber <= r[j].messageNumber)
  {
    var sorted := SortBy(current, NewerOrSame);
    NewerOrSameIsTotalPreorder();
    SortBySorted(current, NewerOrSame);
    LimitOfSortedIsTopK(sorted, limit, NewerOrSame);
    var newest := Limit(sorted, limit);
    ReversedNewestFirstIsOldestFirst(newest);
    var r := Reverse(newest);
    assert multiset(r) == multiset(newest);
    forall x: ConversationRow, y: ConversationRow | x in multiset(current) - multiset(r) && y in multiset(r)
      ensures x.messageNumber <= y.messageNumber
    {
      assert y in multiset(newest);
      assert x in multiset(sorted) - multiset(newest);
      assert NewerOrSame(y, x);
    }
  }

  /** Reversing a newest-first list lists it oldest first. */
  lemma ReversedNewestFirstIsOldestFirst(s: seq<ConversationRow>)
    requires SortedBy(s, NewerOrSame)
    ensures forall i, j | 0 <= i < j < |s| :: Reverse(s)[i].messageNumber <= Reverse(s)[j].messageNumber
  {
    var r := Reverse(s);
    forall i, j | 0 <= i < j < |s|
      ensures r[i].messageNumber <= r[j].messageNumber
    {
      assert NewerOrSame(s[|s| - 1 - j], s[|s| - 1 - i]);
    }
  }

  const HeaderOpen: string := "[Message #"

  /** `f"[Message #{msg_num}]"`. */
  function Header(row: ConversationRow): string
  {
    HeaderOpen + IntToString(row.messageNumber) + "]"
  }

  /** Lines `4i` to `4i + 3` render `row`: its header, `User: ...`,
      `Bot: ...` and a blank line. */
  predicate RendersAt(lines: seq<string>, i: int, row: ConversationRow)
  {
    && 0 <= 4 * i && 4 * i + 3 < |lines|
    && lines[4 * i] == Header(row)
    && lines[4 * i + 1] == "User: " + row.userMessage
    && lines[4 * i + 2] == "Bot: " + row.botResponse
    && lines[4 * i + 3] == ""
  }

  /** The lines of `formatted_history`: four per exchange, in order. */
  function HistoryLines(shown: seq<ConversationRow>): (r: seq<string>)
    ensures |r| == 4 * |shown|
  {
    if |shown| == 0 then []
    else [Header(shown[0]), "User: " + shown[0].userMessage, "Bot: " + shown[0].botResponse, ""] + HistoryLines(shown[1..])
  }

  /** Exchange `i` is rendered by lines `4i` to `4i + 3`. */
  lemma {:induction false} HistoryLinesRenderEach(shown: seq<ConversationRow>)
    ensures forall i | 0 <= i < |shown| :: RendersAt(HistoryLines(shown), i, shown[i])
    decreases |shown|
  {
    if |shown| > 0 {
      var rest := HistoryLines(shown[1..]);
      var block := [Header(shown[0]), "User: " + shown[0].userMessage, "Bot: " + shown[0].botResponse, ""];
      HistoryLinesRenderEach(shown[1..]);
      assert HistoryLines(shown) == block + rest;
      forall i | 0 <= i < |shown|
        ensures RendersAt(block + rest, i, shown[i])
      {
        if i > 0 {
          assert shown[1..][i - 1] == shown[i];
          RendersAfterBlock(block, rest, i - 1, shown[i]);
        }
      }
    }
  }

  lemma RendersAfterBlock(block: seq<string>, rest: seq<string>, i: int, row: ConversationRow)
    requires |block| == 4 && RendersAt(rest, i, row)
    ensures RendersAt(block + rest, i + 1, row)
  {
  }

  /** `"\n".join(formatted_history)` for a non-empty history: it opens with
      the first exchange's `[Message #` header and ends with the newline
      before the last blank line, so it is never the sentinel. */
  function RenderHistory(shown: seq<ConversationRow>): (r: string)
    requires |shown| > 0
    ensures r == JoinLines(HistoryLines(shown))
    ensures |r| > |HeaderOpen| && r[..|HeaderOpen|] == HeaderOpen
    ensures r[|r| - 1] == '\n'
    ensures r != NoHistory
  {
    var lines := HistoryLines(shown);
    HistoryLinesRenderEach(shown);
    assert RendersAt(lines, 0, shown[0]);
    assert RendersAt(lines, |shown| - 1, shown[|shown| - 1]);
    JoinLinesEndsWithLast(lines);
    HeaderOpensText(lines, shown[0]);
    var text := JoinLines(lines);
    assert text[0] == HeaderOpen[0] && NoHistory[0] == 'N';
    text
  }

  /** A text whose first line is a header opens with `[Message #`. */
  lemma HeaderOpensText(lines: seq<string>, row: ConversationRow)
    requires |lines| > 0 && lines[0] == Header(row)
    ensures |JoinLines(lines)| > |HeaderOpen| && JoinLines(lines)[..|HeaderOpen|] == HeaderOpen
  {
    JoinLinesStartsWithFirst(lines);
    var text := JoinLines(lines);
    var rest := IntToString(row.messageNumber) + "]";
    assert lines[0] == HeaderOpen + rest;
    assert text[..|HeaderOpen|] == text[..|lines[0]|][..|HeaderOpen|];
  }

  /** `get_conversation_history`: the sentinel when the user has no context
      or nothing of the current conversation is shown, otherwise the shown
      exchanges rendered. */
  function GetConversationHistory(contexts: Contexts, rows: seq<ConversationRow>, user: UserId, limit: int): (r: string)
    ensures r == NoHistory <==>
      || user !in contexts
      || limit == 0
      || |CurrentRows(rows, user, contexts[user].conversationId)| == 0
    ensures r != NoHistory ==> r == RenderHistory(RecentRows(rows, user, contexts[user].conversationId, limit))
  {
    if user !in contexts then NoHistory
    else
      var shown := RecentRows(rows, user, contexts[user].conversationId, limit);
      if |shown| == 0 then NoHistory else RenderHistory(shown)
  }

  /** A joined text begins with its first line. */
  lemma JoinLinesStartsWithFirst(lines: seq<string>)
    requires |lines| > 0
    ensures |JoinLines(lines)| >= |lines[0]|
    ensures JoinLines(lines)[..|lines[0]|] == lines[0]
  {
    if |lines| > 1 {
      assert JoinLines(lines) == lines[0] + ("\n" + JoinLines(lines[1..]));
    }
  }

  /** A text joined from at least two lines ends with a newline and then its
      last line. */
  lemma {:induction false} JoinLinesEndsWithLast(lines: seq<string>)
    requires |lines| >= 2
    ensures JoinLines(lines) == JoinLines(lines[..|lines| - 1]) + "\n" + lines[|lines| - 1]
  {
    if |lines| > 2 {
      JoinLinesEndsWithLast(lines[1..]);
      assert lines[1..][..|lines[1..]| - 1] == lines[..|lines| - 1][1..];
    }
  }
}

=== FILE: like.dfy ===
/** SQLite's LIKE operator as the fact matcher uses it: `_` matches any one
    character, `%` any run of characters, there is no ESCAPE clause, and
    letters compare case-insensitively for ASCII only. */
module SqlLike {
  import opened Text

  predicate CharLike(p: char, c: char)
  {
    p == '_' || AsciiLower(p) == AsciiLower(c)
  }

  /** `t LIKE p`. */
  predicate Like(p: string, t: string)
    decreases |p| + |t|
  {
    if |p| == 0 then |t| == 0
    else if p[0] == '%' then Like(p[1..], t) || (|t| > 0 && Like(p, t[1..]))
    else |t| > 0 && CharLike(p[0], t[0]) && Like(p[1..], t[1..])
  }

  predicate NoWildcards(s: string)
  {
    forall i :: 0 <= i < |s| ==> s[i] != '%' && s[i] != '_'
  }

  /** Equal up to ASCII case. */
  predicate FoldEq(a: string, b: string)
  {
    |a| == |b| && forall i :: 0 <= i < |a| ==> AsciiLower(a[i]) == AsciiLower(b[i])
  }

  predicate FoldOccursAt(q: string, t: string, k: int)
  {
    0 <= k <= |t| - |q| && FoldEq(q, t[k..k + |q|])
  }

  /** `q` occurs in `t` up to ASCII case. */
  predicate ContainsFolded(t: string, q: string)
  {
    exists k | 0 <= k <= |t| - |q| :: FoldOccursAt(q, t, k)
  }

  /** `r` matches some suffix `t[k..]`. */
  predicate LikeFrom(r: string, t: string, k: int)
  {
    0 <= k <= |t| && Like(r, t[k..])
  }

  lemma {:induction false} PercentMatchesAll(t: string)
    ensures Like("%", t)
    decreases |t|
  {
    if |t| > 0 {
      PercentMatchesAll(t[1..]);
    }
  }

  /** A wildcard-free pattern followed by `%` matches exactly the texts that
      start with it up to case. */
  lemma {:induction false} LikePrefix(q: string, t: string)
    requires NoWildcards(q)
    ensures Like(q + "%", t) <==> |q| <= |t| && FoldEq(q, t[..|q|])
    decreases |q|
  {
    if |q| == 0 {
      assert q + "%" == "%";
      PercentMatchesAll(t);
    } else {
      assert (q + "%")[0] == q[0];
      assert (q + "%")[1..] == q[1..] + "%";
      if |t| > 0 {
        LikePrefix(q[1..], t[1..]);
        if |q| <= |t| {
          assert t[1..][..|q[1..]|] == t[..|q|][1..];
          if FoldEq(q, t[..|q|]) {
            assert AsciiLower(q[0]) == AsciiLower(t[..|q|][0]);
            assert FoldEq(q[1..], t[1..][..|q[1..]|]) by {
              forall i | 0 <= i < |q[1..]|
                ensures AsciiLower(q[1..][i]) == AsciiLower(t[1..][..|q[1..]|][i])
              {
                assert q[1..][i] == q[i + 1];
                assert t[1..][..|q[1..]|][i] == t[..|q|][i + 1];
              }
            }
          }
          if Like(q + "%", t) {
            assert FoldEq(q, t[..|q|]) by {
              forall i | 0 <= i < |q|
                ensures AsciiLower(q[i]) == AsciiLower(t[..|q|][i])
              {
                if i > 0 {
                  assert q[i] == q[1..][i - 1];
                  assert t[..|q|][i] == t[1..][..|q[1..]|][i - 1];
                }
              }
            }
          }
        }
      }
    }
  }

  /** A leading `%` lets the rest of the pattern match any suffix. */
  lemma {:induction false} LikeLeadingPercent(r: string, t: string)
    ensures Like("%" + r, t) <==> exists k | 0 <= k <= |t| :: LikeFrom(r, t, k)
    decreases |t|
  {
    var p := "%" + r;
    assert p[0] == '%' && p[1..] == r;
    assert t[0..] == t;
    if Like(r, t) {
      assert LikeFrom(r, t, 0);
    }
    if |t| > 0 {
      LikeLeadingPercent(r, t[1..]);
      if Like(p, t[1..]) {
        var k :| 0 <= k <= |t[1..]| && LikeFrom(r, t[1..], k);
        assert t[1..][k..] == t[k + 1..];
        assert LikeFrom(r, t, k + 1);
      }
      if exists k | 0 <= k <= |t| :: LikeFrom(r, t, k) {
        var k :| 0 <= k <= |t| && LikeFrom(r, t, k);
        if k > 0 {
          assert t[1..][k - 1..] == t[k..];
          assert LikeFrom(r, t[1..], k - 1);
        }
      }
    } else {
      if exists k | 0 <= k <= |t| :: LikeFrom(r, t, k) {
        var k :| 0 <= k <= |t| && LikeFrom(r, t, k);
        assert k == 0;
      }
    }
  }

  /** For a wildcard-free `q`, `t LIKE '%' || q || '%'` is case-folded
      substring containment of `q` in `t`. */
  lemma SurroundedLikeIsContainment(q: string, t: string)
    requires NoWildcards(q)
    ensures Like("%" + q + "%", t) <==> ContainsFolded(t, q)
  {
    assert "%" + q + "%" == "%" + (q + "%");
    LikeLeadingPercent(q + "%", t);
    forall k | 0 <= k <= |t|
      ensures LikeFrom(q + "%", t, k) <==> FoldOccursAt(q, t, k)
    {
      LikePrefix(q, t[k..]);
      if |q| <= |t[k..]| {
        assert t[k..][..|q|] == t[k..k + |q|];
      }
    }
    if ContainsFolded(t, q) {
      var k :| 0 <= k <= |t| - |q| && FoldOccursAt(q, t, k);
      assert LikeFrom(q + "%", t, k);
    }
  }

  /** The pattern `%%` (an empty slice between the two wildcards) matches
      every text. */
  lemma EmptySliceMatchesAll(t: string)
    ensures Like("%" + "" + "%", t)
  {
    assert "%" + "" + "%" == "%%";
    assert "%%"[1..] == "%";
    PercentMatchesAll(t);
  }

  lemma {:induction false} LikeSelf(q: string)
    ensures Like(q, q)
    decreases |q|
  {
    if |q| > 0 {
      LikeSelf(q[1..]);
      if q[0] == '%' {
        LikeExtendLeft(q[1..], q[1..], [q[0]]);
        assert [q[0]] + q[1..] == q;
        assert "%" + q[1..] == q;
      }
    }
  }

  lemma {:induction false} LikeExtendRight(p: string, t: string, x: string)
    requires Like(p, t)
    ensures Like(p + "%", t + x)
    decreases |p| + |t|
  {
    var p' := p + "%";
    if |p| == 0 {
      assert p' == "%" && t + x == x;
      PercentMatchesAll(x);
    } else {
      assert p'[0] == p[0] && p'[1..] == p[1..] + "%";
      if p[0] == '%' {
        if Like(p[1..], t) {
          LikeExtendRight(p[1..], t, x);
        } else {
          LikeExtendRight(p, t[1..], x);
          assert (t + x)[1..] == t[1..] + x;
        }
      } else {
        LikeExtendRight(p[1..], t[1..], x);
        assert (t + x)[1..] == t[1..] + x;
      }
    }
  }

  lemma {:induction false} LikeExtendLeft(p: string, t: string, y: string)
    requires Like(p, t)
    ensures Like("%" + p, y + t)
    decreases |y|
  {
    var p' := "%" + p;
    assert p'[0] == '%' && p'[1..] == p;
    if |y| == 0 {
      assert y + t == t;
    } else {
      LikeExtendLeft(p, t, y[1..]);
      assert (y + t)[1..] == y[1..] + t;
    }
  }

  /** A text always matches the pattern built from any of its substrings,
      wildcards included. */
  lemma SubstringPatternMatches(q: string, t: string)
    requires IsSubstring(q, t)
    ensures Like("%" + q + "%", t)
  {
    var k :| 0 <= k <= |t| - |q| && OccursAt(q, t, k);
    var pre, post := t[..k], t[k + |q|..];
    assert t == pre + (q + post);
    LikeSelf(q);
    LikeExtendRight(q, q, post);
    LikeExtendLeft(q + "%", q + post, pre);
    assert "%" + q + "%" == "%" + (q + "%");
  }
}

=== FILE: localization.dfy ===
/** Localized interface texts (`LANGUAGES`, `get_user_language` and
    `get_text`), with Python's `str.format` for `{name}` fields. */
module Localization {
  import opened Types

  /** The keys of `LANGUAGES["en"]`; the "ar" and "fr" dictionaries define exactly the same keys, in the same order. */
  const TextKeys: seq<string> := [
    "name",
    "flag",
    "welcome",
    "menu",
    "chat",
    "settings",
    "help",
    "about",
    "back",
    "language",
    "developer",
    "score",
    "data_management",
    "memory_settings",
    "delete_data",
    "export_data",
    "new_chat",
    "subscription",
    "subscription_status",
    "buy_subscription",
    "redeem_code",
    "premium_feature",
    "premium_unlocked",
    "memory_import",
    "memory_export",
    "subscription_active",
    "subscription_inactive",
    "subscription_benefits",
    "monthly_subscription",
    "yearly_subscription",
    "not_enough_points",
    "subscription_success",
    "code_redemption",
    "code_success",
    "code_invalid",
    "memory_limit_reached",
    "memory_imported",
    "memory_import_error",
    "generate_code",
    "code_generated",
    "code_type_monthly",
    "code_type_yearly",
    "points_earned",
    "total_points"
  ]

  /** The "en" texts, position by position with `TextKeys`. */
  const EnglishTexts: seq<string> := [
    "English",
    "🇬🇧",
    "Welcome to GlitchAI! I'm your AI assistant. ✨",
    "Main Menu 📱",
    "Chat 💬",
    "Settings ⚙️",
    "Help ❓",
    "About ℹ️",
    "Back ◀️",
    "Language Settings 🌐",
    "Developer Mode 🧑‍💻",
    "Your Score 🏆",
    "Data Management 📊",
    "Memory Settings 🧠",
    "Delete Data 🗑️",
    "Export Data 📤",
    "New Chat 🔄",
    "Subscription 💎",
    "Subscription Status 📈",
    "Buy Subscription 💰",
    "Redeem Code 🎟️",
    "Premium Feature 🔒",
    "Premium Feature ✅",
    "Import Memory 📥",
    "Export Memory 📤",
    "Your subscription is active until {date} ✅",
    "You don't have an active subscription 🔒",
    "Subscription Benefits 🌟",
    "Monthly Subscription (150 points) 📅",
    "Yearly Subscription (1800 points) 📆",
    "Not enough points! You need {points} more points 🔴",
    "Subscription activated successfully! Valid until {date} 🎉",
    "Enter your redemption code in format XXX-YYY-YYY 🎫",
    "Code redeemed successfully! {benefit} 🎊",
    "Invalid or already used code ❌",
    "Memory limit reached! Upgrade to premium for unlimited memory 🔒",
    "Memory imported successfully! {count} facts loaded 📥",
    "Error importing memory. Please check your file format ❌",
    "Generate Redemption Code 🎫",
    "Code generated: {code} 🎫",
    "Monthly Subscription Code 📅",
    "Yearly Subscription Code 📆",
    "+{points} points earned! 🏆",
    "Total: {points} points 💰"
  ]

  /** The "ar" texts, position by position with `TextKeys`. */
  const ArabicTexts: seq<string> := [
    "العربية",
    "🇩🇿",
    "مرحبًا بك في GlitchAI! أنا مساعدك الذكي. ✨",
    "القائمة الرئيسية 📱",
    "محادثة 💬",
    "الإعدادات ⚙️",
    "المساعدة ❓",
    "حول ℹ️",
    "رجوع ◀️",
    "إعدادات اللغة 🌐",
    "وضع المطور 🧑‍💻",
    "نقاطك 🏆",
    "إدارة البيانات 📊",
    "إعدادات الذاكرة 🧠",
    "حذف البيانات 🗑️",
    "تصدير البيانات 📤",
    "محادثة جديدة 🔄",
    "الاشتراك 💎",
    "حالة الاشتراك 📈",
    "شراء اشتراك 💰",
    "استخدام رمز 🎟️",
    "ميزة مميزة 🔒",
    "ميزة مميزة ✅",
    "استيراد الذاكرة 📥",
    "تصدير الذاكرة 📤",
    "اشتراكك نشط حتى {date} ✅",
    "ليس لديك اشتراك نشط 🔒",
    "مزايا الاشتراك 🌟",
    "اشتراك شهري (150 نقطة) 📅",
    "اشتراك سنوي (1800 نقطة) 📆",
    "نقاط غير كافية! تحتاج إلى {points} نقطة أخرى 🔴",
    "تم تفعيل الاشتراك بنجاح! صالح حتى {date} 🎉",
    "أدخل رمز الاسترداد بتنسيق XXX-YYY-YYY 🎫",
    "تم استرداد الرمز بنجاح! {benefit} 🎊",
    "رمز غير صالح أو مستخدم بالفعل ❌",
    "تم الوصول إلى حد الذاكرة! قم بالترقية إلى الاشتراك المميز للحصول على ذاكرة غير محدودة 🔒",
    "تم استيراد الذاكرة بنجاح! تم تحميل {count} حقائق 📥",
    "خطأ في استيراد الذاكرة. يرجى التحقق من تنسيق الملف ❌",
    "إنشاء رمز استرداد 🎫",
    "تم إنشاء الرمز: {code} 🎫",
    "رمز اشتراك شهري 📅",
    "رمز اشتراك سنوي 📆",
    "+{points} نقطة مكتسبة! 🏆",
    "المجموع: {points} نقطة 💰"
  ]

  /** The "fr" texts, position by position with `TextKeys`. */
  const FrenchTexts: seq<string> := [
    "Français",
    "🇫🇷",
    "Bienvenue sur GlitchAI! Je suis votre assistant IA. ✨",
    "Menu Principal 📱",
    "Discussion 💬",
    "Paramètres ⚙️",
    "Aide ❓",
    "À propos ℹ️",
    "Retour ◀️",
    "Paramètres de langue 🌐",
    "Mode Développeur 🧑‍💻",
    "Votre Score 🏆",
    "Gestion des données 📊",
    "Paramètres de mémoire 🧠",
    "Supprimer les données 🗑️",
    "Exporter les données 📤",
    "Nouvelle Discussion 🔄",
    "Abonnement 💎",
    "Statut d'abonnement 📈",
    "Acheter un abonnement 💰",
    "Utiliser un code 🎟️",
    "Fonctionnalité Premium 🔒",
    "Fonctionnalité Premium ✅",
    "Importer la mémoire 📥",
    "Exporter la mémoire 📤",
    "Votre abonnement est actif jusqu'au {date} ✅",
    "Vous n'avez pas d'abonnement actif 🔒",
    "Avantages de l'abonnement 🌟",
    "Abonnement mensuel (150 points) 📅",
    "Abonnement annuel (1800 points) 📆",
    "Points insuffisants! Il vous faut {points} points de plus 🔴",
    "Abonnement activé avec succès! Valable jusqu'au {date} 🎉",
    "Entrez votre code de réduction au format XXX-YYY-YYY 🎫",
    "Code utilisé avec succès! {benefit} 🎊",
    "Code invalide ou déjà utilisé ❌",
    "Limite de mémoire atteinte! Passez à la version premium pour une mémoire illimitée 🔒",
    "Mémoire importée avec succès! {count} faits chargés 📥",
    "Erreur lors de l'importation de la mémoire. Veuillez vérifier le format du fichier ❌",
    "Générer un code de réduction 🎫",
    "Code généré: {code} 🎫",
    "Code d'abonnement mensuel 📅",
    "Code d'abonnement annuel 📆",
    "+{points} points gagnés! 🏆",
    "Total: {points} points 💰"
  ]

  /** `LANGUAGES`: the texts of each supported language code. */
  const Languages: map<string, seq<string>> := map["en" := EnglishTexts, "ar" := ArabicTexts, "fr" := FrenchTexts]

  /** The position of `key` in `keys`. */
  function IndexOf(keys: seq<string>, key: string): (r: Option<nat>)
    ensures r.Some? ==> r.value < |keys| && keys[r.value] == key
    ensures r.None? <==> key !in keys
  {
    if |keys| == 0 then None
    else if keys[0] == key then Some(0)
    else
      match IndexOf(keys[1..], key)
      case None => None
      case Some(i) => Some(i + 1)
  }

  /** `lang in LANGUAGES and key in LANGUAGES[lang]`. */
  predicate HasText(lang: string, key: string)
  {
    lang in Languages && key in TextKeys
  }

  /** `LANGUAGES[lang][key]`. */
  function TextOf(lang: string, key: string): string
    requires HasText(lang, key)
  {
    assert |Languages[lang]| == |TextKeys|;
    Languages[lang][IndexOf(TextKeys, key).value]
  }

  /** `get_user_language`: the stored language, "en" for an unknown user. */
  function UserLanguage(users: Users, user: UserId): (r: string)
    ensures user in users ==> r == users[user].language
    ensures user !in users ==> r == "en"
  {
    if user in users then users[user].language else "en"
  }

  datatype FormatResult =
    | Formatted(text: string)
    | MissingField(name: string)  // KeyError from `str.format`
    | Malformed                   // ValueError: a '{' with no closing '}'

  function PrependLiteral(s: string, f: FormatResult): FormatResult
  {
    match f
    case Formatted(t) => Formatted(s + t)
    case _ => f
  }

  /** The index of the first '}' in `t`, if any. */
  function CloseBrace(t: string): (r: Option<nat>)
    ensures r.Some? ==> r.value < |t| && t[r.value] == '}' && '}' !in t[..r.value]
    ensures r.None? ==> '}' !in t
  {
    if |t| == 0 then None
    else if t[0] == '}' then Some(0)
    else
      match CloseBrace(t[1..])
      case None => None
      case Some(i) => Some(i + 1)
  }

  /** `text.format(**kwargs)` for texts whose only replacement fields are
      `{name}`: each field is replaced by its keyword argument, and a field
      with no argument raises KeyError. */
  function Format(text: string, kwargs: map<string, string>): FormatResult
    decreases |text|
  {
    if |text| == 0 then Formatted("")
    else if text[0] != '{' then PrependLiteral([text[0]], Format(text[1..], kwargs))
    else
      match CloseBrace(text[1..])
      case None => Malformed
      case Some(i) =>
        var name := text[1..i + 1];
        if name in kwargs then PrependLiteral(kwargs[name], Format(text[i + 2..], kwargs))
        else MissingField(name)
  }

  lemma {:induction false} FormatLiteralPrefix(a: string, t: string, kwargs: map<string, string>)
    requires '{' !in a
    ensures Format(a + t, kwargs) == PrependLiteral(a, Format(t, kwargs))
    decreases |a|
  {
    if |a| > 0 {
      assert (a + t)[0] == a[0] && (a + t)[1..] == a[1..] + t;
      assert a[1..] == a[1..];
      FormatLiteralPrefix(a[1..], t, kwargs);
      assert [a[0]] + a[1..] == a;
      match Format(t, kwargs)
      case Formatted(s) => assert [a[0]] + (a[1..] + s) == a + s;
      case _ =>
    } else {
      assert a + t == t;
      match Format(t, kwargs)
      case Formatted(s) => assert a + s == s;
      case _ =>
    }
  }

  /** A text with no replacement field formats to itself, whatever the
      arguments. */
  lemma FormatWithoutFieldsIsIdentity(a: string, kwargs: map<string, string>)
    requires '{' !in a
    ensures Format(a, kwargs) == Formatted(a)
  {
    FormatLiteralPrefix(a, "", kwargs);
    assert a + "" == a;
  }

  /** A keyword field name as `str.format` reads it: an ASCII identifier.
      Names that are numbers, or hold `.`, `[`, `:` or `!`, mean positional
      fields, attribute or index access, a format spec or a conversion. */
  predicate IsFieldName(name: string)
  {
    && |name| > 0
    && !('0' <= name[0] <= '9')
    && forall i | 0 <= i < |name| ::
         'a' <= name[i] <= 'z' || 'A' <= name[i] <= 'Z' || '0' <= name[i] <= '9' || name[i] == '_'
  }

  /** One field between two field-free texts is replaced by its argument,
      or raises KeyError naming it. */
  lemma FormatOneField(a: string, name: string, b: string, kwargs: map<string, string>)
    requires '{' !in a && '}' !in a && '{' !in b && '}' !in b && IsFieldName(name)
    ensures name in kwargs ==> Format(a + "{" + name + "}" + b, kwargs) == Formatted(a + kwargs[name] + b)
    ensures name !in kwargs ==> Format(a + "{" + name + "}" + b, kwargs) == MissingField(name)
  {
    var t := "{" + name + "}" + b;
    assert a + "{" + name + "}" + b == a + t;
    FormatLiteralPrefix(a, t, kwargs);
    FormatLeadingField(name, b, kwargs);
    if name in kwargs {
      var filled := kwargs[name] + b;
      assert PrependLiteral(a, Formatted(filled)) == Formatted(a + filled);
      assert a + filled == a + kwargs[name] + b;
    } else {
      assert PrependLiteral(a, MissingField(name)) == MissingField(name);
    }
  }

  /** A text opening with a field and free of fields after it. */
  lemma FormatLeadingField(name: string, b: string, kwargs: map<string, string>)
    requires '{' !in b && '}' !in name
    ensures name in kwargs ==> Format("{" + name + "}" + b, kwargs) == Formatted(kwargs[name] + b)
    ensures name !in kwargs ==> Format("{" + name + "}" + b, kwargs) == MissingField(name)
  {
    var t := "{" + name + "}" + b;
    assert t[0] == '{' && t[1..] == name + ("}" + b);
    CloseBraceAfter(name, "}" + b);
    assert t[1..|name| + 1] == name;
    assert t[|name| + 2..] == b;
    FormatWithoutFieldsIsIdentity(b, kwargs);
  }

  lemma {:induction false} CloseBraceAfter(name: string, rest: string)
    requires '}' !in name && |rest| > 0 && rest[0] == '}'
    ensures CloseBrace(name + rest) == Some(|name|)
    decreases |name|
  {
    if |name| == 0 {
      assert name + rest == rest;
    } else {
      assert (name + rest)[0] == name[0] && (name + rest)[1..] == name[1..] + rest;
      CloseBraceAfter(name[1..], rest);
    }
  }

  /** What `get_text` produces: the text, or the KeyError it raises (the
      ValueError of a malformed text is kept apart). */
  datatype TextResult = Found(value: string) | KeyError(key: string) | FormatError

  /** `get_text`: the text of `key` in the user's language, formatted when
      keyword arguments are given (a missing field leaves the text as it
      is); otherwise the English text, unformatted; otherwise KeyError. */
  function GetText(users: Users, user: UserId, key: string, kwargs: map<string, string>): (r: TextResult)
    ensures r.KeyError? <==> key !in TextKeys
    ensures r.KeyError? ==> r.key == key
    ensures UserLanguage(users, user) !in Languages && key in TextKeys ==> r == Found(TextOf("en", key))
    ensures |kwargs| == 0 && HasText(UserLanguage(users, user), key) ==> r == Found(TextOf(UserLanguage(users, user), key))
    ensures r.FormatError? ==> HasText(UserLanguage(users, user), key) && Format(TextOf(UserLanguage(users, user), key), kwargs).Malformed?
  {
    var lang := UserLanguage(users, user);
    if HasText(lang, key) then
      var text := TextOf(lang, key);
      if |kwargs| > 0 then
        match Format(text, kwargs)
        case Formatted(s) => Found(s)
        case MissingField(_) => Found(text)
        case Malformed => FormatError
      else Found(text)
    else if HasText("en", key) then Found(TextOf("en", key))
    else KeyError(key)
  }

  /** The subscription menu asks for 'choose_plan', which no language defines:
      the lookup raises KeyError for every user. */
  lemma ChoosePlanRaisesKeyError(users: Users, user: UserId, kwargs: map<string, string>)
    ensures GetText(users, user, "choose_plan", kwargs) == KeyError("choose_plan")
  {
    ChoosePlanIsNoKey();
  }

  lemma ChoosePlanIsNoKey()
    ensures "choose_plan" !in TextKeys
  {
  }

  /** A text with one `{name}` field is filled in from the keyword
      arguments, or returned unfilled when they lack the field. */
  lemma GetTextFillsOneField(users: Users, user: UserId, key: string, kwargs: map<string, string>, a: string, name: string, b: string)
    requires HasText(UserLanguage(users, user), key)
    requires TextOf(UserLanguage(users, user), key) == a + "{" + name + "}" + b
    requires '{' !in a && '}' !in a && '{' !in b && '}' !in b && IsFieldName(name)
    requires |kwargs| > 0
    ensures name in kwargs ==> GetText(users, user, key, kwargs) == Found(a + kwargs[name] + b)
    ensures name !in kwargs ==> GetText(users, user, key, kwargs) == Found(a + "{" + name + "}" + b)
  {
    FormatOneField(a, name, b, kwargs);
  }

  /** Only the user's own row decides the language of the texts it gets, and
      a user without a row gets the English texts. */
  lemma TextsFollowOwnLanguage(users: Users, user: UserId, other: UserId, record: UserRecord, key: string, kwargs: map<string, string>)
    requires other != user
    ensures GetText(users[other := record], user, key, kwargs) == GetText(users, user, key, kwargs)
    ensures user !in users && key in TextKeys && |kwargs| == 0 ==> GetText(users, user, key, kwargs) == Found(TextOf("en", key))
  {
  }
}

=== FILE: names.dfy ===
/** `normalize_arabic_name`: folds known transliterations of one Arabic name
    onto a single spelling. */
module Names {
  import opened Text

  const Canonical: string := "wael"

  /** `name_mapping`, keyed by lower-cased spelling. */
  const NameMapping: map<string, string> := map[
    "wail" := Canonical,
    "wael" := Canonical,
    "وائل" := Canonical
  ]

  /** A spelling the mapping knows maps to the canonical spelling; any other
      name is returned exactly as given, not lower-cased. */
  function NormalizeArabicName(name: string): (r: string)
    ensures r == Canonical <==> Lower(name) in NameMapping
    ensures r != Canonical ==> r == name
  {
    var normalized := Lower(name);
    assert Lower(Canonical) == Canonical;
    if normalized in NameMapping then NameMapping[normalized] else name
  }

  /** Normalizing twice changes nothing more. */
  lemma NormalizeIsIdempotent(name: string)
    ensures NormalizeArabicName(NormalizeArabicName(name)) == NormalizeArabicName(name)
  {
    assert Lower(Canonical) == Canonical;
  }

  /** Every capitalisation of "wail" and "wael", and the Arabic spelling,
      normalize to the same name. */
  lemma KnownSpellingsAgree(name: string)
    requires |name| == 4 && AsciiLower(name[0]) == 'w' && AsciiLower(name[1]) == 'a'
    requires AsciiLower(name[2]) in "ie" && AsciiLower(name[3]) == 'l'
    ensures NormalizeArabicName(name) == NormalizeArabicName("وائل") == Canonical
  {
    assert Lower("وائل") == "وائل";
    var l := Lower(name);
    assert l == "wail" || l == "wael";
  }
}

=== FILE: points.dfy ===
/** The score awarded for one exchange (`calculate_message_points`). */
module Points {
  import opened Text

  const EducationalKeywords: seq<string> := ["how to", "explain", "what is", "why does", "tutorial"]

  /** `any(keyword in user_message.lower() for keyword in ...)`. */
  predicate HasEducationalKeyword(userMessage: string)
  {
    exists i | 0 <= i < |EducationalKeywords| :: IsSubstring(EducationalKeywords[i], Lower(userMessage))
  }

  /** 1 for any exchange; +1 for a user text over 50 characters and +2 more
      over 150; +1 for a question mark; +1 for a reply over 200 characters
      and +2 more over 500; +2 for an educational keyword. */
  function MessagePoints(userMessage: string, botResponse: string): (r: int)
    ensures 1 <= r <= 10
    ensures r == 10 <==>
      |userMessage| > 150 && '?' in userMessage && |botResponse| > 500 && HasEducationalKeyword(userMessage)
    ensures r == 1 <==>
      |userMessage| <= 50 && '?' !in userMessage && |botResponse| <= 200 && !HasEducationalKeyword(userMessage)
  {
    var points := 1;
    var points := if |userMessage| > 50 then points + 1 else points;
    var points := if |userMessage| > 150 then points + 2 else points;
    var points := if '?' in userMessage then points + 1 else points;
    var points := if |botResponse| > 200 then points + 1 else points;
    var points := if |botResponse| > 500 then points + 2 else points;
    if HasEducationalKeyword(userMessage) then points + 2 else points
  }

  /** Appending to the user's text never lowers the score: every length
      threshold, question mark and keyword that counted still counts. */
  lemma UserTextExtensionNeverLowersPoints(userMessage: string, more: string, botResponse: string)
    ensures MessagePoints(userMessage + more, botResponse) >= MessagePoints(userMessage, botResponse)
  {
    if '?' in userMessage {
      var i :| 0 <= i < |userMessage| && userMessage[i] == '?';
      assert (userMessage + more)[i] == '?';
    }
    if HasEducationalKeyword(userMessage) {
      var i :| 0 <= i < |EducationalKeywords| && IsSubstring(EducationalKeywords[i], Lower(userMessage));
      LowerAppend(userMessage, more);
      SubstringExtend(EducationalKeywords[i], Lower(userMessage), Lower(more));
      assert IsSubstring(EducationalKeywords[i], Lower(userMessage + more));
    }
  }
}

=== FILE: selection.dfy ===
/** `get_user_facts`: choose the facts to put in the prompt, by category and
    rank, and record that they were used. */
module FactSelector {
  import opened Types
  import opened Sorting

  /** `last_used ASC` with SQLite's NULLs-first rule: `a` was used strictly
      earlier than `b`, a never-used fact counting as earliest of all. */
  predicate UsedEarlier(a: Option<Time>, b: Option<Time>)
  {
    (a.None? && b.Some?) || (a.Some? && b.Some? && a.value < b.value)
  }

  /** `ORDER BY confidence DESC, last_used ASC, usage_count ASC`: `a` may be
      listed before `b`. */
  predicate RankLe(a: Fact, b: Fact)
  {
    || a.confidence > b.confidence
    || (a.confidence == b.confidence && UsedEarlier(a.lastUsed, b.lastUsed))
    || (a.confidence == b.confidence && a.lastUsed == b.lastUsed && a.usageCount <= b.usageCount)
  }

  /** The ranking is a total preorder, so sorting by it is meaningful. */
  lemma RankIsTotalPreorder()
    ensures TotalPreorder(RankLe)
  {
    forall a: Fact, b: Fact
      ensures RankLe(a, b) || RankLe(b, a)
    {
      if a.confidence == b.confidence && a.lastUsed != b.lastUsed {
        assert UsedEarlier(a.lastUsed, b.lastUsed) || UsedEarlier(b.lastUsed, a.lastUsed);
      }
    }
    forall a: Fact, b: Fact, c: Fact | RankLe(a, b) && RankLe(b, c)
      ensures RankLe(a, c)
    {
    }
  }

  /** `categories` is falsy (empty) or holds the fact's category. */
  predicate InCategories(f: Fact, categories: seq<string>)
  {
    |categories| == 0 || f.category in categories
  }

  /** The `WHERE user_id = ? [AND category IN (...)]` condition. */
  predicate Eligible(f: Fact, user: UserId, categories: seq<string>)
  {
    f.userId == user && InCategories(f, categories)
  }

  /** The rows the query's `WHERE` clause keeps, in table order. */
  function Filter(facts: seq<Fact>, user: UserId, categories: seq<string>): (r: seq<Fact>)
    ensures forall i | 0 <= i < |r| :: Eligible(r[i], user, categories)
    ensures forall f :: multiset(r)[f] == if Eligible(f, user, categories) then multiset(facts)[f] else 0
  {
    if |facts| == 0 then []
    else
      assert facts == [facts[0]] + facts[1..];
      var rest := Filter(facts[1..], user, categories);
      if Eligible(facts[0], user, categories) then [facts[0]] + rest else rest
  }

  /** The `SELECT` of `get_user_facts`: at most `limit` eligible facts
      (every one if the limit is negative), best first, and no eligible fact
      left out ranks strictly above one that was chosen. */
  function SelectFacts(facts: seq<Fact>, user: UserId, categories: seq<string>, limit: int): (r: seq<Fact>)
    ensures var eligible := Filter(facts, user, categories);
      && (limit >= 0 ==> |r| == Min(limit, |eligible|))
      && (limit < 0 ==> |r| == |eligible|)
      && SortedBy(r, RankLe)
      && IsTopK(r, eligible, RankLe)
    ensures forall i | 0 <= i < |r| :: r[i].userId == user && InCategories(r[i], categories)
  {
    var eligible := Filter(facts, user, categories);
    var sorted := SortBy(eligible, RankLe);
    RankIsTotalPreorder();
    SortBySorted(eligible, RankLe);
    LimitOfSortedIsTopK(sorted, limit, RankLe);
    var r := Limit(sorted, limit);
    forall i | 0 <= i < |r|
      ensures r[i].userId == user && InCategories(r[i], categories)
    {
      assert r[i] in multiset(r);
      assert multiset(eligible)[r[i]] > 0;
    }
    r
  }

  /** `UPDATE user_facts SET last_used = ?, usage_count = usage_count + 1
      WHERE user_id = ? AND fact IN (...)`: every row of the user whose text
      is one of `texts` is stamped with `now` and counted once more; nothing
      else changes. */
  function TouchUsed(facts: seq<Fact>, user: UserId, texts: seq<string>, now: Time): (r: seq<Fact>)
    ensures |r| == |facts|
    ensures forall i | 0 <= i < |facts| && facts[i].userId == user && facts[i].text in texts ::
      r[i] == facts[i].(lastUsed := Some(now), usageCount := facts[i].usageCount + 1)
    ensures forall i | 0 <= i < |facts| && !(facts[i].userId == user && facts[i].text in texts) ::
      r[i] == facts[i]
    ensures |texts| == 0 ==> r == facts
  {
    if |facts| == 0 then []
    else
      var f := facts[0];
      var f' := if f.userId == user && f.text in texts then f.(lastUsed := Some(now), usageCount := f.usageCount + 1) else f;
      [f'] + TouchUsed(facts[1..], user, texts, now)
  }

  /** Some chosen fact has this text. */
  predicate Returned(selected: seq<Fact>, text: string)
  {
    exists j | 0 <= j < |selected| :: selected[j].text == text
  }

  function Texts(selected: seq<Fact>): (r: seq<string>)
    ensures |r| == |selected|
    ensures forall i | 0 <= i < |selected| :: r[i] == selected[i].text
  {
    if |selected| == 0 then [] else [selected[0].text] + Texts(selected[1..])
  }

  /** `get_user_facts`: the selected facts as they were before the update,
      and the table after the selected texts were marked used (skipped when
      nothing was selected). */
  function GetUserFacts(facts: seq<Fact>, user: UserId, categories: seq<string>, limit: int, now: Time)
    : (r: (seq<Fact>, seq<Fact>))
    ensures r.0 == SelectFacts(facts, user, categories, limit)
    ensures |r.1| == |facts|
    ensures |r.0| == 0 ==> r.1 == facts
    ensures forall i | 0 <= i < |facts| ::
      r.1[i] == if facts[i].userId == user && Returned(r.0, facts[i].text)
                then facts[i].(lastUsed := Some(now), usageCount := facts[i].usageCount + 1)
                else facts[i]
  {
    var selected := SelectFacts(facts, user, categories, limit);
    var texts := Texts(selected);
    assert forall t :: t in texts <==> Returned(selected, t);
    (selected, if |selected| > 0 then TouchUsed(facts, user, texts, now) else facts)
  }

  /** Every row behind a chosen fact is marked used, and so is any other
      row of the user with the same text, even one the category filter
      excluded. */
  lemma SelectedRowsAreTouched(facts: seq<Fact>, user: UserId, categories: seq<string>, limit: int, now: Time, i: int, j: int)
    requires 0 <= i < |facts| && facts[i].userId == user
    requires var selected := SelectFacts(facts, user, categories, limit);
      0 <= j < |selected| && selected[j].text == facts[i].text
    ensures var after := GetUserFacts(facts, user, categories, limit, now).1;
      && after[i].lastUsed == Some(now)
      && after[i].usageCount == facts[i].usageCount + 1
      && after[i].category == facts[i].category
  {
  }

  /** Other users' facts are never touched. */
  lemma OtherUsersUntouched(facts: seq<Fact>, user: UserId, categories: seq<string>, limit: int, now: Time)
    ensures var after := GetUserFacts(facts, user, categories, limit, now).1;
      forall i | 0 <= i < |facts| && facts[i].userId != user :: after[i] == facts[i]
  {
  }

  /** Usage feedback rotates the prompt: once a fact has been marked used at
      `now`, an equally confident fact that is unused, or was last used
      earlier, ranks strictly ahead of it. */
  lemma UsedFactYieldsToStalerPeer(facts: seq<Fact>, user: UserId, categories: seq<string>, limit: int, now: Time, i: int, k: int)
    requires 0 <= i < |facts| && 0 <= k < |facts|
    requires facts[i].userId == user && facts[k].userId == user
    requires facts[k].confidence == facts[i].confidence
    requires facts[k].lastUsed.None? || facts[k].lastUsed.value < now
    ensures var (selected, after) := GetUserFacts(facts, user, categories, limit, now);
      Returned(selected, facts[i].text) && !Returned(selected, facts[k].text) ==>
        RankLe(after[k], after[i]) && !RankLe(after[i], after[k])
  {
    var (selected, after) := GetUserFacts(facts, user, categories, limit, now);
    if Returned(selected, facts[i].text) && !Returned(selected, facts[k].text) {
      assert after[i] == facts[i].(lastUsed := Some(now), usageCount := facts[i].usageCount + 1);
      assert after[k] == facts[k];
      TouchedRanksBehind(facts[i], facts[k], now);
    }
  }

  lemma TouchedRanksBehind(f: Fact, g: Fact, now: Time)
    requires g.confidence == f.confidence && (g.lastUsed.None? || g.lastUsed.value < now)
    ensures var f' := f.(lastUsed := Some(now), usageCount := f.usageCount + 1);
      RankLe(g, f') && !RankLe(f', g)
  {
  }
}

=== FILE: session.dfy ===
/** Conversation numbering: `start_new_conversation` and the numbering,
    logging and scoring part of `log_conversation`. */
module Session {
  import opened Types
  import opened Points
  import Subscription

  /** `start_new_conversation`: installs a fresh context under `freshId` (the
      generated uuid, which the source also returns) with a zero count,
      replacing any previous context of the user. */
  function StartNewConversation(contexts: Contexts, user: UserId, freshId: string): (r: Contexts)
    ensures user in r && r[user] == ConversationContext(freshId, 0)
    ensures r.Keys == contexts.Keys + {user}
    ensures forall u | u in contexts && u != user :: r[u] == contexts[u]
  {
    contexts[user := ConversationContext(freshId, 0)]
  }

  /** The numbering step of `log_conversation`, as written: with no context it
      starts one (count 0) and answers 1; otherwise it increments the stored
      count and answers the new value. */
  function NextMessageNumber(contexts: Contexts, user: UserId, freshId: string): (r: (Contexts, int))
    ensures user in r.0 && r.0.Keys == contexts.Keys + {user}
    ensures forall u | u in contexts && u != user :: r.0[u] == contexts[u]
    ensures user !in contexts ==> r.1 == 1 && r.0[user] == ConversationContext(freshId, 0)
    ensures user in contexts ==>
      && r.1 == contexts[user].messageCount + 1
      && r.0[user] == ConversationContext(contexts[user].conversationId, r.1)
  {
    if user !in contexts then
      (StartNewConversation(contexts, user, freshId), 1)
    else
      var context := contexts[user];
      var n := context.messageCount + 1;
      (contexts[user := context.(messageCount := n)], n)
  }

  /** The numbering that counts the implicit start's own message: the new
      context stores 1, so the stored count always equals the last number
      handed out. */
  function NextMessageNumberIntended(contexts: Contexts, user: UserId, freshId: string): (r: (Contexts, int))
    ensures user in r.0 && r.0.Keys == contexts.Keys + {user}
    ensures forall u | u in contexts && u != user :: r.0[u] == contexts[u]
    ensures r.0[user].messageCount == r.1
    ensures user !in contexts ==> r.1 == 1 && r.0[user].conversationId == freshId
    ensures user in contexts ==>
      && r.1 == contexts[user].messageCount + 1
      && r.0[user].conversationId == contexts[user].conversationId
  {
    if user !in contexts then
      (contexts[user := ConversationContext(freshId, 1)], 1)
    else
      NextMessageNumber(contexts, user, freshId)
  }

  /** The numbers handed out by `n` successive logs of one user, and the
      contexts afterwards; `intended` picks the numbering. */
  function NumberRun(intended: bool, contexts: Contexts, user: UserId, freshId: string, n: nat): (r: (seq<int>, Contexts))
    ensures |r.0| == n
    decreases n
  {
    if n == 0 then ([], contexts)
    else
      var (next, k) :=
        if intended then NextMessageNumberIntended(contexts, user, freshId)
        else NextMessageNumber(contexts, user, freshId);
      var (rest, final) := NumberRun(intended, next, user, freshId, n - 1);
      ([k] + rest, final)
  }

  /** Once a context exists, both numberings continue from the stored count
      one by one, inside the same conversation, and leave the count at the
      last number handed out. */
  lemma {:induction false} NumberingContinuesFromStoredCount(intended: bool, contexts: Contexts, user: UserId, freshId: string, n: nat)
    requires user in contexts
    ensures var (numbers, final) := NumberRun(intended, contexts, user, freshId, n);
      && (forall i | 0 <= i < n :: numbers[i] == contexts[user].messageCount + i + 1)
      && user in final
      && final[user] == ConversationContext(contexts[user].conversationId, contexts[user].messageCount + n)
    decreases n
  {
    if n > 0 {
      var (next, k) :=
        if intended then NextMessageNumberIntended(contexts, user, freshId)
        else NextMessageNumber(contexts, user, freshId);
      NumberingContinuesFromStoredCount(intended, next, user, freshId, n - 1);
    }
  }

  /** After `start_new_conversation`, n logs are numbered 1, 2, ..., n. */
  lemma StartThenLogNumbersOneToN(intended: bool, contexts: Contexts, user: UserId, id: string, freshId: string, n: nat)
    ensures var (numbers, final) := NumberRun(intended, StartNewConversation(contexts, user, id), user, freshId, n);
      && (forall i | 0 <= i < n :: numbers[i] == i + 1)
      && user in final && final[user] == ConversationContext(id, n)
  {
    NumberingContinuesFromStoredCount(intended, StartNewConversation(contexts, user, id), user, freshId, n);
  }

  /** As written, the first two logs of a user without a context are both
      numbered 1: the implicit start answers 1 but stores 0. */
  lemma ImplicitStartRepeatsNumberOne(contexts: Contexts, user: UserId, freshId: string)
    requires user !in contexts
    ensures NumberRun(false, contexts, user, freshId, 2).0 == [1, 1]
  {
    var (next, k) := NextMessageNumber(contexts, user, freshId);
    NumberingContinuesFromStoredCount(false, next, user, freshId, 1);
  }

  /** With the intended numbering, n logs of a user without a context are
      numbered 1, 2, ..., n with no repeat. */
  lemma IntendedNumberingHasNoRepeats(contexts: Contexts, user: UserId, freshId: string, n: nat)
    requires user !in contexts
    ensures var numbers := NumberRun(true, contexts, user, freshId, n).0;
      forall i | 0 <= i < n :: numbers[i] == i + 1
  {
    if n > 0 {
      var (next, k) := NextMessageNumberIntended(contexts, user, freshId);
      NumberingContinuesFromStoredCount(true, next, user, freshId, n - 1);
    }
  }

  /** What `log_conversation` leaves behind. */
  datatype Logged = Logged(contexts: Contexts, rows: seq<ConversationRow>, users: Users, messageNumber: int, points: int)

  /** `log_conversation` without its timestamps, statistics and the
      extraction task it spawns: numbers the exchange as the code does (an
      implicit start stores count 0 and answers 1), scores it, appends the
      row under the current conversation id and adds the points to the
      user's score (an UPDATE that changes nothing for an unknown user). */
  function LogConversation(
    contexts: Contexts, rows: seq<ConversationRow>, users: Users,
    user: UserId, userMessage: string, botResponse: string, freshId: string, rowId: int): (r: Logged)
    ensures user in r.contexts && r.contexts.Keys == contexts.Keys + {user}
    ensures forall u | u in contexts && u != user :: r.contexts[u] == contexts[u]
    ensures user !in contexts ==>
      && r.messageNumber == 1
      && r.contexts[user] == ConversationContext(freshId, 0)
    ensures user in contexts ==>
      && r.messageNumber == contexts[user].messageCount + 1
      && r.contexts[user] == ConversationContext(contexts[user].conversationId, r.messageNumber)
    ensures r.points == MessagePoints(userMessage, botResponse) && 1 <= r.points <= 10
    ensures r.rows == rows + [ConversationRow(rowId, user, r.contexts[user].conversationId, r.messageNumber, userMessage, botResponse, r.points)]
    ensures r.users.Keys == users.Keys
    ensures forall u | u in users && u != user :: r.users[u] == users[u]
    ensures user in users ==> r.users[user] == users[user].(score := users[user].score + r.points)
  {
    var (contexts', number) := NextMessageNumber(contexts, user, freshId);
    Record(contexts', number, rows, users, user, userMessage, botResponse, rowId)
  }

  /** `log_conversation` with the corrected numbering: the same log, except
      that an implicit start stores the number it hands out. */
  function LogConversationIntended(
    contexts: Contexts, rows: seq<ConversationRow>, users: Users,
    user: UserId, userMessage: string, botResponse: string, freshId: string, rowId: int): (r: Logged)
    ensures user in r.contexts && r.contexts.Keys == contexts.Keys + {user}
    ensures forall u | u in contexts && u != user :: r.contexts[u] == contexts[u]
    ensures r.messageNumber == if user in contexts then contexts[user].messageCount + 1 else 1
    ensures r.contexts[user] == ConversationContext(
      if user in contexts then contexts[user].conversationId else freshId, r.messageNumber)
    ensures r.points == MessagePoints(userMessage, botResponse) && 1 <= r.points <= 10
    ensures r.rows == rows + [ConversationRow(rowId, user, r.contexts[user].conversationId, r.messageNumber, userMessage, botResponse, r.points)]
    ensures r.users.Keys == users.Keys
    ensures forall u | u in users && u != user :: r.users[u] == users[u]
    ensures user in users ==> r.users[user] == users[user].(score := users[user].score + r.points)
  {
    var (contexts', number) := NextMessageNumberIntended(contexts, user, freshId);
    Record(contexts', number, rows, users, user, userMessage, botResponse, rowId)
  }

  /** The scoring, row and score part shared by both numberings. */
  function Record(contexts: Contexts, number: int, rows: seq<ConversationRow>, users: Users,
                  user: UserId, userMessage: string, botResponse: string, rowId: int): (r: Logged)
    requires user in contexts
  {
    var points := MessagePoints(userMessage, botResponse);
    var row := ConversationRow(rowId, user, contexts[user].conversationId, number, userMessage, botResponse, points);
    var users' := if user in users then users[user := users[user].(score := users[user].score + points)] else users;
    Logged(contexts, rows + [row], users', number, points)
  }

  /** The two logs differ only for a user without a context: once a context
      exists (as `generate_ai_response` ensures before it logs), they agree
      on everything. Without one, both answer 1, but only the corrected one
      stores it. */
  lemma LogVariantsDifferOnlyOnImplicitStart(
    contexts: Contexts, rows: seq<ConversationRow>, users: Users,
    user: UserId, userMessage: string, botResponse: string, freshId: string, rowId: int)
    ensures var written := LogConversation(contexts, rows, users, user, userMessage, botResponse, freshId, rowId);
      var intended := LogConversationIntended(contexts, rows, users, user, userMessage, botResponse, freshId, rowId);
      && (user in contexts ==> written == intended)
      && (user !in contexts ==>
            && written.messageNumber == intended.messageNumber == 1
            && written.rows == intended.rows && written.users == intended.users
            && written.points == intended.points
            && written.contexts[user] == ConversationContext(freshId, 0)
            && intended.contexts == written.contexts[user := ConversationContext(freshId, 1)])
  {
  }

  /** The score `get_user_score` reads grows by the exchange's points for
      the logging user, when that user has a row, and for no one else. */
  lemma LogAddsPointsToScore(
    contexts: Contexts, rows: seq<ConversationRow>, users: Users,
    user: UserId, userMessage: string, botResponse: string, freshId: string, rowId: int, u: UserId)
    ensures var r := LogConversation(contexts, rows, users, user, userMessage, botResponse, freshId, rowId);
      Subscription.UserScore(r.users, u) == Subscription.UserScore(users, u) + (if u == user && user in users then r.points else 0)
  {
  }
}

=== FILE: sorting.dfy ===
/** Stable insertion sort by a total preorder and SQL's LIMIT, used for the
    `ORDER BY ... LIMIT ?` queries of fact selection and history. SQLite
    leaves the order of tied rows unspecified; the sort keeps table order,
    and every contract built on it holds for any order of tied rows. */
module Sorting {

  /** `le(a, b)`: `a` may come before `b`. */
  ghost predicate TotalPreorder<T(!new)>(le: (T, T) -> bool)
  {
    && (forall a, b :: le(a, b) || le(b, a))
    && (forall a, b, c :: le(a, b) && le(b, c) ==> le(a, c))
  }

  ghost predicate SortedBy<T>(s: seq<T>, le: (T, T) -> bool)
  {
    forall i, j :: 0 <= i < j < |s| ==> le(s[i], s[j])
  }

  /** Puts `x` in front of the first element it may precede. */
  function InsertBy<T>(x: T, s: seq<T>, le: (T, T) -> bool): (r: seq<T>)
    ensures multiset(r) == multiset(s) + multiset{x}
    ensures |r| == |s| + 1
  {
    if |s| == 0 then [x]
    else if le(x, s[0]) then [x] + s
    else
      assert s == [s[0]] + s[1..];
      [s[0]] + InsertBy(x, s[1..], le)
  }

  function SortBy<T>(s: seq<T>, le: (T, T) -> bool): (r: seq<T>)
    ensures multiset(r) == multiset(s)
    ensures |r| == |s|
  {
    if |s| == 0 then []
    else
      assert s == [s[0]] + s[1..];
      InsertBy(s[0], SortBy(s[1..], le), le)
  }

  lemma {:induction false} InsertBySorted<T(!new)>(x: T, s: seq<T>, le: (T, T) -> bool)
    requires TotalPreorder(le)
    requires SortedBy(s, le)
    ensures SortedBy(InsertBy(x, s, le), le)
    decreases |s|
  {
    var r := InsertBy(x, s, le);
    if |s| > 0 && !le(x, s[0]) {
      var rest := InsertBy(x, s[1..], le);
      InsertBySorted(x, s[1..], le);
      assert r == [s[0]] + rest;
      forall j | 0 < j < |r|
        ensures le(s[0], r[j])
      {
        assert r[j] in multiset(rest);
        assert r[j] in multiset(s[1..]) + multiset{x};
        if r[j] in multiset(s[1..]) {
          var k :| 0 <= k < |s[1..]| && s[1..][k] == r[j];
          assert s[k + 1] == r[j];
        }
      }
    }
  }

  lemma {:induction false} SortBySorted<T(!new)>(s: seq<T>, le: (T, T) -> bool)
    requires TotalPreorder(le)
    ensures SortedBy(SortBy(s, le), le)
    decreases |s|
  {
    if |s| > 0 {
      SortBySorted(s[1..], le);
      InsertBySorted(s[0], SortBy(s[1..], le), le);
    }
  }

  /** The smaller of two integers. */
  function Min(a: int, b: int): (r: int)
    ensures r <= a && r <= b && (r == a || r == b)
  {
    if a < b then a else b
  }

  /** SQL `LIMIT n`: a negative limit means no limit. */
  function Limit<T>(s: seq<T>, n: int): (r: seq<T>)
    ensures n >= 0 ==> |r| == Min(n, |s|)
    ensures n < 0 ==> r == s
    ensures r == s[..|r|]
  {
    if n < 0 || n >= |s| then s else s[..n]
  }

  /** Every element kept by a prefix of a sorted sequence may precede every
      element the prefix dropped. */
  lemma PrefixPrecedesRest<T>(t: seq<T>, k: nat, le: (T, T) -> bool)
    requires SortedBy(t, le)
    requires k <= |t|
    ensures multiset(t) == multiset(t[..k]) + multiset(t[k..])
    ensures forall x, y | x in multiset(t[..k]) && y in multiset(t[k..]) :: le(x, y)
  {
    assert t == t[..k] + t[k..];
    forall x, y | x in multiset(t[..k]) && y in multiset(t[k..])
      ensures le(x, y)
    {
      var i :| 0 <= i < k && t[..k][i] == x;
      var j :| 0 <= j < |t| - k && t[k..][j] == y;
      assert t[i] == x && t[k + j] == y;
    }
  }

  /** `r` is drawn from `pool`, and each element of `r` may precede each
      element of `pool` that `r` left out. */
  ghost predicate IsTopK<T>(r: seq<T>, pool: seq<T>, le: (T, T) -> bool)
  {
    && multiset(r) <= multiset(pool)
    && forall x, y | x in multiset(r) && y in multiset(pool) - multiset(r) :: le(x, y)
  }

  /** `LIMIT n` on a sorted sequence keeps a sorted sub-multiset, and each
      kept element may precede each dropped one. */
  lemma LimitOfSortedIsTopK<T>(t: seq<T>, n: int, le: (T, T) -> bool)
    requires SortedBy(t, le)
    ensures SortedBy(Limit(t, n), le)
    ensures IsTopK(Limit(t, n), t, le)
  {
    var r := Limit(t, n);
    PrefixPrecedesRest(t, |r|, le);
    assert t[..|r|] == r;
  }

  function Reverse<T>(s: seq<T>): (r: seq<T>)
    ensures |r| == |s|
    ensures forall i :: 0 <= i < |s| ==> r[i] == s[|s| - 1 - i]
    ensures multiset(r) == multiset(s)
  {
    if |s| == 0 then []
    else
      assert s == [s[0]] + s[1..];
      Reverse(s[1..]) + [s[0]]
  }
}

=== FILE: subscription.dfy ===
/** The entitlement state machine: the subscription check with its expiry
    side effect, buying a plan with points, and single-use redemption codes. */
module Subscription {
  import opened Types

  const MonthlyPrice: int := 150
  const YearlyPrice: int := 1800

  /** The stored end date is in the future and the flag is set. */
  predicate ActiveAt(record: UserRecord, now: Time)
  {
    record.subscriptionEnd.Some? && record.subscriptionEnd.value > now && record.subscribedFlag == 1
  }

  /** The flag is still set but the stored end date has passed. */
  predicate LapsedAt(record: UserRecord, now: Time)
  {
    record.subscriptionEnd.Some? && record.subscriptionEnd.value <= now && record.subscribedFlag == 1
  }

  /** `is_user_subscribed`: active iff the user has an end date later than
      `now` and the flag is 1; a lapsed flag is cleared on the way. A user
      without a row or without an end date is not subscribed and nothing
      changes. */
  function IsUserSubscribed(users: Users, user: UserId, now: Time): (r: (Users, bool))
    ensures r.1 <==> user in users && ActiveAt(users[user], now)
    ensures r.0.Keys == users.Keys
    ensures forall u | u in users && u != user :: r.0[u] == users[u]
    ensures user in users ==> r.0[user] == users[user].(subscribedFlag := r.0[user].subscribedFlag)
    ensures user in users ==>
      (r.0[user].subscribedFlag == 0 && users[user].subscribedFlag != 0 <==> LapsedAt(users[user], now))
    ensures user in users && !LapsedAt(users[user], now) ==> r.0[user] == users[user]
  {
    if user !in users || users[user].subscriptionEnd.None? then (users, false)
    else
      var record := users[user];
      var active := record.subscriptionEnd.value > now && record.subscribedFlag == 1;
      if !active && record.subscribedFlag == 1 then
        (users[user := record.(subscribedFlag := 0)], false)
      else (users, active)
  }

  /** Checking twice at the same moment gives the same answer and the second
      check changes nothing. */
  lemma SubscriptionCheckIsIdempotent(users: Users, user: UserId, now: Time)
    ensures var (users', active) := IsUserSubscribed(users, user, now);
      IsUserSubscribed(users', user, now) == (users', active)
  {
  }

  /** After the check a set flag means a live subscription (or no end date). */
  lemma CheckLeavesNoLapsedFlag(users: Users, user: UserId, now: Time)
    requires user in users
    ensures var users' := IsUserSubscribed(users, user, now).0;
      !LapsedAt(users'[user], now)
  {
  }

  datatype Plan = Plan(price: int, days: int)

  /** The price and length of the plans `purchase_subscription` sells. */
  function PlanFor(kind: string): (r: Option<Plan>)
    ensures r.Some? <==> kind == "monthly" || kind == "yearly"
    ensures r.Some? ==> r.value.price > 0 && r.value.days > 0
  {
    if kind == "monthly" then Some(Plan(MonthlyPrice, 30))
    else if kind == "yearly" then Some(Plan(YearlyPrice, 365))
    else None
  }

  /** `get_user_score`: 0 for a user without a row. */
  function UserScore(users: Users, user: UserId): (r: int)
    ensures user in users ==> r == users[user].score
    ensures user !in users ==> r == 0
  {
    if user in users then users[user].score else 0
  }

  datatype PurchaseOutcome =
    | Purchased(end: Time)
    | InvalidType
    | NotEnoughPoints(shortfall: int)

  /** `purchase_subscription`: an unknown plan or a score below the price
      fails without changing anything, reporting the shortfall; otherwise
      exactly the price is deducted and the subscription runs from `now` for
      the plan's days (replacing any later end date). */
  function PurchaseSubscription(users: Users, user: UserId, kind: string, now: Time): (r: (Users, PurchaseOutcome))
    ensures r.1.InvalidType? <==> PlanFor(kind).None?
    ensures r.1.NotEnoughPoints? <==> PlanFor(kind).Some? && UserScore(users, user) < PlanFor(kind).value.price
    ensures r.1.NotEnoughPoints? ==> r.1.shortfall > 0 && r.1.shortfall == PlanFor(kind).value.price - UserScore(users, user)
    ensures !r.1.Purchased? ==> r.0 == users
    ensures r.1.Purchased? ==>
      && user in users
      && r.1.end == now + Days(PlanFor(kind).value.days)
      && r.0 == users[user := users[user].(
           score := users[user].score - PlanFor(kind).value.price,
           subscribedFlag := 1,
           subscriptionEnd := Some(r.1.end))]
      && r.0[user].score >= 0
  {
    match PlanFor(kind)
    case None => (users, InvalidType)
    case Some(plan) =>
      var score := UserScore(users, user);
      if score < plan.price then (users, NotEnoughPoints(plan.price - score))
      else
        // a user without a row has score 0, below every price
        var end := now + Days(plan.days);
        var record := users[user].(score := score - plan.price, subscribedFlag := 1, subscriptionEnd := Some(end));
        (users[user := record], Purchased(end))
  }

  /** A purchase makes the subscription check succeed from `now` until the
      new end date, and the points spent plus the points left are the
      points the user had. */
  lemma PurchaseActivatesUntilEnd(users: Users, user: UserId, kind: string, now: Time, t: Time)
    requires PurchaseSubscription(users, user, kind, now).1.Purchased?
    requires now <= t < PurchaseSubscription(users, user, kind, now).1.end
    ensures var users' := PurchaseSubscription(users, user, kind, now).0;
      && IsUserSubscribed(users', user, t).1
      && users'[user].score + PlanFor(kind).value.price == users[user].score
  {
  }

  /** A purchase spends exactly the plan's price, from the buyer's score
      only; a failed purchase spends nothing. */
  lemma PurchaseSpendsOnlyTheBuyersPoints(users: Users, user: UserId, kind: string, now: Time, u: UserId)
    ensures var (users', outcome) := PurchaseSubscription(users, user, kind, now);
      UserScore(users', u) == UserScore(users, u) - (if outcome.Purchased? && u == user then PlanFor(kind).value.price else 0)
  {
  }

  /** The code exists and has not been used. */
  predicate HasUnusedCode(codes: seq<RedemptionCode>, code: string)
  {
    exists i | 0 <= i < |codes| :: codes[i].code == code && !codes[i].isUsed
  }

  /** `SELECT id, type FROM redemption_codes WHERE code = ? AND is_used = 0`. */
  function FindUnusedCode(codes: seq<RedemptionCode>, code: string): (r: Option<nat>)
    ensures r.Some? ==> r.value < |codes| && codes[r.value].code == code && !codes[r.value].isUsed
    ensures r.None? <==> !HasUnusedCode(codes, code)
  {
    if |codes| == 0 then None
    else if codes[0].code == code && !codes[0].isUsed then Some(0)
    else
      match FindUnusedCode(codes[1..], code)
      case None =>
        assert forall i | 1 <= i < |codes| :: codes[i] == codes[1..][i - 1];
        None
      case Some(i) => Some(i + 1)
  }

  /** The days a code of each type grants; an unknown type grants a month. */
  function CodeDays(kind: string): (r: int)
    ensures r == 365 <==> kind == "yearly"
    ensures r == 30 <==> kind != "yearly"
  {
    if kind == "monthly" then 30 else if kind == "yearly" then 365 else 30
  }

  function CodeBenefit(kind: string): string
  {
    if kind == "monthly" then "Monthly subscription activated"
    else if kind == "yearly" then "Yearly subscription activated"
    else "Subscription activated"
  }

  /** `get_subscription_end_date`. */
  function SubscriptionEnd(users: Users, user: UserId): (r: Option<Time>)
    ensures r.Some? ==> user in users && r == users[user].subscriptionEnd
    ensures user !in users ==> r.None?
  {
    if user in users then users[user].subscriptionEnd else None
  }

  /** The subscription check reads the end date and never moves one: a user
      is subscribed exactly when the date `get_subscription_end_date` returns
      is later than now and the flag is set. */
  lemma SubscribedIffEndAhead(users: Users, user: UserId, now: Time, u: UserId)
    ensures var (users', active) := IsUserSubscribed(users, user, now);
      && SubscriptionEnd(users', u) == SubscriptionEnd(users, u)
      && (active <==>
            && SubscriptionEnd(users, user).Some?
            && SubscriptionEnd(users, user).value > now
            && users[user].subscribedFlag == 1)
  {
  }

  datatype RedeemOutcome = Redeemed(benefit: string, end: Time) | InvalidCode

  /** `redeem_code`: an unknown or used code fails and changes nothing;
      otherwise the code is marked used by the user at `now`, and the
      subscription is set to run for the code's days from the current end
      date when that is still in the future, else from `now`. */
  function RedeemCode(codes: seq<RedemptionCode>, users: Users, user: UserId, code: string, now: Time)
    : (r: (seq<RedemptionCode>, Users, RedeemOutcome))
    ensures r.2.InvalidCode? <==> !HasUnusedCode(codes, code)
    ensures r.2.InvalidCode? ==> r.0 == codes && r.1 == users
    ensures r.2.Redeemed? ==> exists i | 0 <= i < |codes| ::
      && codes[i].code == code && !codes[i].isUsed
      && r.0 == codes[i := codes[i].(isUsed := true, usedAt := Some(now), usedBy := Some(user))]
      && r.2.benefit == CodeBenefit(codes[i].kind)
      && r.2.end == (
           var current := SubscriptionEnd(users, user);
           (if current.Some? && current.value > now then current.value else now) + Days(CodeDays(codes[i].kind)))
    ensures r.2.Redeemed? && user in users ==>
      r.1 == users[user := users[user].(subscribedFlag := 1, subscriptionEnd := Some(r.2.end))]
    ensures r.2.Redeemed? && user !in users ==> r.1 == users
    ensures |r.0| == |codes|
  {
    match FindUnusedCode(codes, code)
    case None => (codes, users, InvalidCode)
    case Some(i) =>
      var row := codes[i];
      var codes' := codes[i := row.(isUsed := true, usedAt := Some(now), usedBy := Some(user))];
      var current := SubscriptionEnd(users, user);
      var base := if current.Some? && current.value > now then current.value else now;
      var end := base + Days(CodeDays(row.kind));
      var users' :=
        if user in users then users[user := users[user].(subscribedFlag := 1, subscriptionEnd := Some(end))]
        else users;
      (codes', users', Redeemed(CodeBenefit(row.kind), end))
  }

  /** The `UNIQUE` constraint on `redemption_codes.code`. */
  predicate CodesUnique(codes: seq<RedemptionCode>)
  {
    forall i, j | 0 <= i < j < |codes| :: codes[i].code != codes[j].code
  }

  /** A code works once: redeeming it again, by anyone, fails. */
  lemma RedeemingTwiceFails(codes: seq<RedemptionCode>, users: Users, user: UserId, other: UserId, code: string, now: Time, later: Time)
    requires CodesUnique(codes)
    requires RedeemCode(codes, users, user, code, now).2.Redeemed?
    ensures var (codes', users', _) := RedeemCode(codes, users, user, code, now);
      RedeemCode(codes', users', other, code, later).2 == InvalidCode
  {
    var (codes', users', outcome) := RedeemCode(codes, users, user, code, now);
    var i :| 0 <= i < |codes| && codes[i].code == code && !codes[i].isUsed
      && codes' == codes[i := codes[i].(isUsed := true, usedAt := Some(now), usedBy := Some(user))];
    assert forall j | 0 <= j < |codes'| && j != i :: codes'[j].code != code;
  }

  /** Redeeming a code leaves the user subscribed, and never ends a live
      subscription sooner: the time the code grants is added on top. */
  lemma RedeemExtendsSubscription(codes: seq<RedemptionCode>, users: Users, user: UserId, code: string, now: Time)
    requires user in users
    requires RedeemCode(codes, users, user, code, now).2.Redeemed?
    ensures var (_, users', outcome) := RedeemCode(codes, users, user, code, now);
      && IsUserSubscribed(users', user, now).1
      && outcome.end >= now + Days(30)
      && (ActiveAt(users[user], now) ==> outcome.end >= users[user].subscriptionEnd.value + Days(30))
  {
  }

  /** Buying a plan or redeeming a code sets the end date that
      `get_subscription_end_date` then reads back; a code redeemed by a user
      without a row sets none. */
  lemma EndDateReadsBack(codes: seq<RedemptionCode>, users: Users, user: UserId, code: string, kind: string, now: Time)
    ensures var (users', outcome) := PurchaseSubscription(users, user, kind, now);
      outcome.Purchased? ==> SubscriptionEnd(users', user) == Some(outcome.end)
    ensures var (_, users', outcome) := RedeemCode(codes, users, user, code, now);
      outcome.Redeemed? ==> SubscriptionEnd(users', user) == if user in users then Some(outcome.end) else None
  {
  }

  predicate CodeChar(c: char)
  {
    'A' <= c <= 'Z' || '0' <= c <= '9'
  }

  predicate CodePart(s: string)
  {
    |s| == 3 && forall i | 0 <= i < 3 :: CodeChar(s[i])
  }

  /** The `XXX-YYY-YYY` shape of generated codes: three groups of three
      upper-case letters or digits joined by dashes. */
  predicate IsCodeFormat(s: string)
  {
    |s| == 11 && s[3] == '-' && s[7] == '-' && CodePart(s[..3]) && CodePart(s[4..7]) && CodePart(s[8..])
  }

  /** `f"{part1}-{part2}-{part3}"`. */
  function FormatCode(a: string, b: string, c: string): (r: string)
    requires CodePart(a) && CodePart(b) && CodePart(c)
    ensures IsCodeFormat(r)
  {
    var r := a + "-" + b + "-" + c;
    assert r[..3] == a && r[4..7] == b && r[8..] == c;
    r
  }

  /** A well-formed code is exactly the joining of its three groups. */
  lemma CodeFormatRoundTrip(s: string)
    requires IsCodeFormat(s)
    ensures FormatCode(s[..3], s[4..7], s[8..]) == s
  {
  }
}

=== FILE: text.dfy ===
/** String helpers shared by the model: ASCII case folding, Python slicing,
    substring search, decimal rendering of integers and line joining. */
module Text {

  function AsciiLower(c: char): char
  {
    if 'A' <= c <= 'Z' then (c as int + 32) as char else c
  }

  /** `s.lower()` restricted to ASCII letters. */
  function Lower(s: string): (r: string)
    ensures |r| == |s|
    ensures forall i :: 0 <= i < |s| ==> r[i] == AsciiLower(s[i])
  {
    seq(|s|, i requires 0 <= i < |s| => AsciiLower(s[i]))
  }

  lemma LowerAppend(a: string, b: string)
    ensures Lower(a + b) == Lower(a) + Lower(b)
  {
    assert forall i :: 0 <= i < |a + b| ==> Lower(a + b)[i] == (Lower(a) + Lower(b))[i];
  }

  /** Python's `s[lo:hi]` for non-negative bounds: both are clamped to the
      length, and the slice is empty when `lo` is not below `hi`. */
  function PySlice(s: string, lo: nat, hi: nat): (r: string)
    ensures |r| == if hi < |s| && lo < hi then hi - lo else if lo < |s| && lo < hi then |s| - lo else 0
    ensures forall i | 0 <= i < |r| :: r[i] == s[lo + i]
    ensures IsSubstring(r, s)
  {
    var a := if lo < |s| then lo else |s|;
    var b := if hi < a then a else if hi < |s| then hi else |s|;
    assert OccursAt(s[a..b], s, a);
    s[a..b]
  }

  /** `p` occurs in `s` starting at index `k`. */
  predicate OccursAt(p: string, s: string, k: int)
  {
    0 <= k <= |s| - |p| && s[k..k + |p|] == p
  }

  /** Python's `p in s` for two strings. */
  predicate IsSubstring(p: string, s: string)
  {
    exists k | 0 <= k <= |s| - |p| :: OccursAt(p, s, k)
  }

  lemma SubstringExtend(p: string, s: string, x: string)
    requires IsSubstring(p, s)
    ensures IsSubstring(p, s + x)
  {
    var k :| 0 <= k <= |s| - |p| && OccursAt(p, s, k);
    assert (s + x)[k..k + |p|] == s[k..k + |p|];
    assert OccursAt(p, s + x, k);
  }

  function DigitChar(d: nat): char
    requires d < 10
  {
    "0123456789"[d]
  }

  /** `str(n)` for a natural number. */
  function NatToString(n: nat): (r: string)
    ensures 0 < |r|
    ensures forall i :: 0 <= i < |r| ==> '0' <= r[i] <= '9'
    decreases n
  {
    if n < 10 then [DigitChar(n)] else NatToString(n / 10) + [DigitChar(n % 10)]
  }

  /** `str(i)` for any integer. */
  function IntToString(i: int): (r: string)
    ensures 0 < |r|
  {
    if i < 0 then "-" + NatToString(-i) else NatToString(i)
  }

  /** The value a string of decimal digits denotes. */
  function DigitsValue(s: string): nat
    requires forall i :: 0 <= i < |s| ==> '0' <= s[i] <= '9'
  {
    if |s| == 0 then 0 else DigitsValue(s[..|s| - 1]) * 10 + (s[|s| - 1] as int - '0' as int)
  }

  lemma {:induction false} NatToStringRoundTrip(n: nat)
    ensures DigitsValue(NatToString(n)) == n
    decreases n
  {
    var r := NatToString(n);
    if n < 10 {
      assert r[..|r| - 1] == [];
    } else {
      NatToStringRoundTrip(n / 10);
      assert r[..|r| - 1] == NatToString(n / 10);
    }
  }

  /** Python's `"\n".join(lines)`. */
  function JoinLines(lines: seq<string>): string
  {
    if |lines| == 0 then ""
    else if |lines| == 1 then lines[0]
    else lines[0] + "\n" + JoinLines(lines[1..])
  }
}

=== FILE: types.dfy ===
/** The records the bot keeps: rows of its SQLite tables (users, conversations,
    user_facts, redemption_codes) and the in-memory conversation contexts.
    Tables are sequences in rowid order; the per-user context store is a map. */
module Types {

  datatype Option<+T> = None | Some(value: T) {
    /** `dict.get(key, default)` when this is the looked-up entry. */
    function GetOr(default: T): T
    {
      match this
      case Some(v) => v
      case None => default
    }
  }

  type UserId = int

  /** A point in time in whole seconds; `now` is always passed in. */
  type Time = int

  const SecondsPerDay: int := 86400

  /** The length of `timedelta(days = n)` in seconds. */
  function Days(n: int): int
  {
    n * SecondsPerDay
  }

  /** One row of `user_facts`. */
  datatype Fact = Fact(
    id: int,
    userId: UserId,
    text: string,
    sourceMessageId: Option<int>,
    confidence: real,
    category: string,
    timestamp: Time,
    lastUsed: Option<Time>,
    usageCount: nat)

  /** The entry of `conversation_contexts` for one user. The source also keeps
      three lists here ('context', 'facts_used', 'current_topics') that are
      created empty and never read by the core, so they are not modelled. */
  datatype ConversationContext = ConversationContext(conversationId: string, messageCount: int)

  type Contexts = map<UserId, ConversationContext>

  /** One row of `conversations`. */
  datatype ConversationRow = ConversationRow(
    id: int,
    userId: UserId,
    conversationId: string,
    messageNumber: int,
    userMessage: string,
    botResponse: string,
    points: int)

  /** The columns of `users` the core reads or writes. `subscribedFlag` is the
      INTEGER column `is_subscribed` (0 or 1 in practice). */
  datatype UserRecord = UserRecord(
    language: string,
    score: int,
    subscriptionEnd: Option<Time>,
    subscribedFlag: int)

  type Users = map<UserId, UserRecord>

  /** One row of `redemption_codes`; `kind` is the `type` column. */
  datatype RedemptionCode = RedemptionCode(
    id: int,
    code: string,
    kind: string,
    isUsed: bool,
    usedAt: Option<Time>,
    usedBy: Option<UserId>)

  /** One decoded element of a JSON fact list, as the Python code sees it:
      either not a dict, or a dict whose "fact", "confidence" and "category"
      keys may each be absent. */
  datatype Candidate =
    | NotADict
    | FactDict(fact: Option<string>, confidence: Option<real>, category: Option<string>)
}
